=== FILE: README.md ===
# Maya animation tools: a Dafny model

This project models the logic inside four of Alehaaaa's Maya tools:

- **Space switch** (`aleha_tools/spaceswitch.py`) changes a control's enumerated "space"
  attribute while keeping its world transform. The model covers:
  - target resolution from the selection;
  - the keyframe set, including the timeline-range filter and the "apply to all frames" toggle;
  - the two-pass bake, which first captures the target's world matrix on every keyframe and then
    sets the enum and writes the captured matrix back frame by frame;
  - the enum-attribute filter;
  - the namespace shortening of displayed names;
  - the drop-down index choice.
- **The older space-switch tool** (`spaceswitch_pyside2.py`). It has the same apply path, with a
  single progress counter over both passes. Its enum filter is different: it drops rotate-order
  enums, raises on unknown attributes and returns `None` when there is nothing to list.
- **Cams** (`aleha_tools/cams.py`). The model covers:
  - the lexicographic update check and the changelog message;
  - camera-button labels;
  - the HUD command table and the frame-rate text;
  - the preferences: migration from the legacy storage node, partial overrides, and the
    save/get/process sequence.
- **The HUD preset editor** (`aleha_tools/cams_tools/HUDWindow.py`). It keeps a name-keyed table
  of six-slot presets, with fresh-name search, new, duplicate, rename-on-save, delete and apply.

Maya itself is a `Scene.Host` object. Its fields are:

- the current time;
- a total world-matrix function `world: (Obj, int) -> Mat` over an opaque `Mat`;
- the enum values written (`enumAt`);
- the locked plugs and the keyframes of each object;
- the refresh-suspend flag, the undo-chunk depth, the script-job flag, and the progress-bar
  events.

Setting an enum may change every object's world matrix at the current time arbitrarily. A
`setAttr` on a locked plug raises.

Files:

- `wrappers.dfy`: `Option` and `Result`.
- `text.dfy`: the Python string operations the tools use (`split`, `join`, `rsplit(".", 1)[-1]`,
  `endswith`, `isalnum`, decimal `str`, and string `<`).
- `hud.dfy`: the six-slot preset and the heads-up-display command table shared by Cams and the
  editor.
- `scene.dfy`: the host.
- `spaceswitch.dfy`, `spaceswitch_legacy.dfy`, `cams.dfy` and `hud_window.dfy`: the four tools.

## Model

| member | source | states |
|---|---|---|
| Text.LastSegment | aleha_tools/spaceswitch.py:281 | `rsplit(".", 1)[-1]`: the result has no separator and is a suffix of the input; with a separator in the input, the input ends with a separator followed by the result; without one, the result is the whole input |
| Text.JoinSplit | aleha_tools/spaceswitch.py:313-315 | joining the `split(":")` pieces with ":" gives back the enum-name string |
| Text.NatToStringRoundTrip | aleha_tools/cams_tools/HUDWindow.py:361 | the decimal text of `r` used in "name r" reads back as `r` |
| Text.LexLessTotal | aleha_tools/cams.py:969 | Python's string `<` orders any two distinct strings one way or the other |
| Text.LexLessTransitive | aleha_tools/cams.py:969 | Python's string `<` is transitive |
| SpaceSwitch.SortedSet | aleha_tools/spaceswitch.py:441-442 | `sorted(set(...))`: strictly increasing, with exactly the queried frames as members |
| SpaceSwitch.StrictlyIncreasingUnique | aleha_tools/spaceswitch.py:441-442 | two strictly increasing lists with the same members are equal, so the keyframe list is determined by the frame set |
| SpaceSwitch.InRange | aleha_tools/spaceswitch.py:450-452 | the kept frames are exactly those with `range[0] <= f <= range[1]`, inclusive at both ends, still ascending |
| SpaceSwitch.PlanTarget | aleha_tools/spaceswitch.py:433-439 | more than two selected objects warn and do nothing else; none fails on the unbound target; one or two make `sel[0]` or `sel[1]` the target unless the range branch hits an empty list |
| SpaceSwitch.PlanBakeFrames | aleha_tools/spaceswitch.py:441-465 | a bake runs only with one or two objects selected, over at least two strictly increasing keyframes of the target, which are in the range when one is visible; with no visible range, the toggle is on |
| SpaceSwitch.PlanApplyHere | aleha_tools/spaceswitch.py:441-467 | a single apply at the current frame happens exactly when the target has no keyframes (the query failed or returned none), or when there is no range and either the toggle is off or there is one keyframe |
| SpaceSwitch.PlanRangeFewerThanTwo | aleha_tools/spaceswitch.py:450-455 | one kept frame means a jump to it and a single apply; none kept means the `keyframes[0]` index error, and this happens exactly when no keyframe lies in the range |
| SpaceSwitch.PlanScenarioRange | aleha_tools/spaceswitch.py:448-457 | keys 1, 24 and 48 with range 1..24 bake frames 1 and 24 |
| SpaceSwitch.PlanScenarioSingleKey | aleha_tools/spaceswitch.py:461-463 | a single keyframe with no range gives a single apply |
| SpaceSwitch.PlanScenarioNoKeys | aleha_tools/spaceswitch.py:466-467 | a target with no keyframes always gives a single apply |
| SpaceSwitch.PlanFor | aleha_tools/spaceswitch.py:433-467 | a warning exactly when more than two objects are selected; the unbound-target failure exactly when none is; any switch acts on the last selected object; a bake covers at least two strictly increasing frames |
| SpaceSwitch.ShortNames | aleha_tools/spaceswitch.py:279-282 | the names are exactly the last segments of the animatable plugs that are not listed in the channel box, no more of them than plugs |
| SpaceSwitch.Unlisted | aleha_tools/spaceswitch.py:279-280 | the animatable plugs not in the channel-box listing, exactly those, in their order |
| SpaceSwitch.ShortNamesInOrder | aleha_tools/spaceswitch.py:279-282 | one short name per unlisted plug, in the plugs' order: the i-th name is the last segment of the i-th unlisted plug |
| SpaceSwitch.KeepSwitchable | aleha_tools/spaceswitch.py:286-296 | an attribute is kept exactly when it is a known enum with at least one alphanumeric label; the kept ones are the candidates with some left out, in the candidates' order |
| SpaceSwitch.GetEnum | aleha_tools/spaceswitch.py:276-302 | every attribute offered is switchable, and the offered list keeps the candidates' order (short names first, then `rotateOrder`) |
| SpaceSwitch.GetEnumMembers | aleha_tools/spaceswitch.py:276-302 | `getEnum` returns exactly the switchable attributes that are animatable and not channel-box listed, plus `rotateOrder` when the toggle is set and the list was not empty |
| SpaceSwitch.GetEnumRotateOrder | aleha_tools/spaceswitch.py:283-285 | without the toggle, `rotateOrder` appears only if it is animatable itself; with no animatable attributes the result is empty whatever the toggle |
| SpaceSwitch.KeepSwitchableAppend | aleha_tools/spaceswitch.py:286-296 | the filter loop over a concatenation keeps each part's attributes in turn |
| SpaceSwitch.GetEnumRotateOrderLast | aleha_tools/spaceswitch.py:283-296 | with the toggle on and some short name left, a switchable `rotateOrder` is offered last, after the switchable short names, so it appears twice when it is also one of them |
| SpaceSwitch.SwitchableTwoLabels | aleha_tools/spaceswitch.py:291-296 | an enum with two labels is switchable exactly when one of them is alphanumeric |
| SpaceSwitch.GetEnumScenario | aleha_tools/spaceswitch.py:276-302 | for a control with a World/Local `space` enum, a float channel and a "--:__" divider enum, only `space` is offered |
| SpaceSwitch.DisplayNameHidden | aleha_tools/spaceswitch.py:195-200 | with namespaces hidden, a namespaced name shows as "...:" plus its second colon-separated part, left-aligned |
| SpaceSwitch.DisplayName | aleha_tools/spaceswitch.py:195-210 | a name without a colon, or any name with namespaces shown, is displayed whole; it is right-aligned exactly when it has a colon and namespaces are shown; a hidden namespace shows as "...:" and a colon-free segment |
| SpaceSwitch.ComboFor | aleha_tools/spaceswitch.py:213-237 | nothing offered exactly when the drop-down is disabled; one offered attribute fills it with that attribute's values; with several, a time change with a non-empty earlier pick shows that pick's values, and otherwise (no time change, or no or an empty pick) the attributes are listed |
| SpaceSwitch.SetCombobox | aleha_tools/spaceswitch.py:311-323 | the items are the ":"-separated enum names and join back to them; the selected index is the current value when it is a valid index, and 0 otherwise |
| SpaceSwitch.StampAt | aleha_tools/spaceswitch.py:409-411 | after the apply pass, the enum plug holds the index at every baked frame and nothing else changes |
| SpaceSwitch.DoXform | aleha_tools/spaceswitch.py:358-364 | sets `sel[0]`'s enum to the index at the current time, then writes to `target` the supplied captured matrix or the one read before the enum change; a locked plug raises with no change; other times are untouched |
| SpaceSwitch.Steps | aleha_tools/spaceswitch.py:398-419 | the progress steps of one pass are numbered one by one from the starting count |
| SpaceSwitch.CaptureFrames | aleha_tools/spaceswitch.py:393-405 | pass 1 captures, in order, the target's world matrix at every keyframe, one progress step each |
| SpaceSwitch.ApplyFrames | aleha_tools/spaceswitch.py:409-419 | pass 2 gives every keyframe its captured matrix back on the target and the index on the enum plug; a locked plug stops it at the first frame with nothing written; times outside the keyframes are untouched |
| SpaceSwitch.EnterBake | aleha_tools/spaceswitch.py:366-391 | the bake opens one undo chunk, removes the script jobs, suspends refresh and starts a bar of `len(keyframes)` steps |
| SpaceSwitch.LeaveBake | aleha_tools/spaceswitch.py:423-426 | the `finally` block resumes refresh, closes the undo chunk and re-adds the script jobs |
| SpaceSwitch.BakePasses | aleha_tools/spaceswitch.py:389-422 | all matrices are captured before any write; after success the time is restored and each baked frame keeps its pre-bake world matrix; after a failure the time stays at the first keyframe |
| SpaceSwitch.MultipleFrames | aleha_tools/spaceswitch.py:366-430 | the bake's effect as above, and the undo chunk is closed, refresh resumed and script jobs re-added whether or not it fails; the progress is one `len(keyframes)` bar per pass |
| SpaceSwitch.ApplyChanges | aleha_tools/spaceswitch.py:353-467 | the host follows the plan: a warning or failure changes nothing; a single apply keeps the target's matrix at the applied frame, changes no other time and leaves the bar, chunks, refresh and script jobs alone, and a locked plug leaves matrices and enums unchanged; a successful bake restores the time and stamps the index on every baked frame; a failed bake stays at the first keyframe with nothing written; every bake resumes refresh, closes its chunk, re-adds the script jobs and reports its progress |
| SpaceSwitchLegacy.BakeProgressCounts | spaceswitch_pyside2.py:310-346 | one bar of `2 * len(keyframes)`, counting 1..n while saving and n+1..2n while applying |
| SpaceSwitchLegacy.BakePasses | spaceswitch_pyside2.py:319-346 | the same two passes on the single counter; the time is restored only after success |
| SpaceSwitchLegacy.MultipleFrames | spaceswitch_pyside2.py:306-349 | the bake's effect, then refresh resumed and the undo chunk closed in `finally` |
| SpaceSwitchLegacy.ApplyChanges | spaceswitch_pyside2.py:293-386 | the same target and frame-set decisions as the newer tool, with the index written by `do_xform` on `sel[0]` and the matrix on `target`; script jobs untouched; a single apply changes no other time and no bar, chunk or refresh state; a failed bake stays at the first keyframe with nothing written; every bake resumes refresh, closes its chunk and reports on one bar |
| SpaceSwitchLegacy.MatchCount | spaceswitch_pyside2.py:217-219 | one plug contributes one copy exactly when it ends with the attribute's name, none otherwise; the count is positive exactly when some plug does |
| SpaceSwitchLegacy.MatchCountAppend | spaceswitch_pyside2.py:217-219 | the count over two listings is the sum of their counts, so the attribute is listed once per matching plug |
| SpaceSwitchLegacy.Ordered | spaceswitch_pyside2.py:217-219 | the ordered list holds exactly the attributes that some animatable plug ends with |
| SpaceSwitchLegacy.KeepEnums | spaceswitch_pyside2.py:220-228 | an attribute the host cannot describe raises; otherwise exactly the enums with no rotate-order label are kept |
| SpaceSwitchLegacy.GetEnum | spaceswitch_pyside2.py:211-234 | `None` exactly when either attribute list is empty; an error exactly when a matched attribute is unknown; otherwise exactly the matched enums with no rotate-order label |
| SpaceSwitchLegacy.RotateOrderNeverOffered | spaceswitch_pyside2.py:226-228 | an enum with an "xyz" label is never offered |
| SpaceSwitchLegacy.DisplayName | spaceswitch_pyside2.py:154-165 | with namespaces off, the whole name right-aligned; with them on, the newer tool's shortened form, failing exactly on a name without a colon |
| Cams.UpdateOfferedOrder | aleha_tools/cams.py:969 | an update is offered exactly when the remote version is a different string that `VERSION` does not precede under string `<` |
| Cams.UpdateOfferedExamples | aleha_tools/cams.py:42 | against "0.0.93", "0.0.94" and "0.1" are offered; "0.0.100" (string order) and the current version are not |
| Cams.ScanInvariant | aleha_tools/cams.py:955-964 | the loop's groups plus the open group are the truthy items in order; no group is empty and none holds a falsy item |
| Cams.ScanAfterClosed | aleha_tools/cams.py:955-962 | once the open group is empty, the rest of the items are grouped as a fresh changelog and appended |
| Cams.GroupsRun | aleha_tools/cams.py:955-964 | a single run of truthy items is one group |
| Cams.GroupsRunThenBlank | aleha_tools/cams.py:955-964 | a run of truthy items then a blank is the first group, followed by the groups of the rest |
| Cams.GroupsLeadingBlank | aleha_tools/cams.py:955-964 | a leading blank item is dropped |
| Cams.GroupsPartition | aleha_tools/cams.py:955-966 | the final groups split the truthy items in order, never emitting an empty group |
| Cams.ShownGroups | aleha_tools/cams.py:965-966 | one to five groups: the changelog's groups in order, all of them when there are at most four and the first four otherwise, then the closing "== And more ==" group |
| Cams.ChangelogMessage | aleha_tools/cams.py:967 | the message always ends with "== And more ==" |
| Cams.GroupTexts | aleha_tools/cams.py:967 | each group's text joins its items with a newline |
| Cams.ConvertListToString | aleha_tools/cams.py:954-967 | the loop produces the grouped and truncated message |
| Cams.ChangelogScenario | aleha_tools/cams.py:955-964 | runs of blanks separate groups and a trailing blank adds none |
| Cams.CameraLabel | aleha_tools/cams.py:166 | names up to 8 characters are shown unchanged; longer ones as "..." and their last 6 characters, 9 characters in all |
| Cams.FramerateText | aleha_tools/cams.py:255-268 | the text always ends in "fps" |
| Cams.FramerateTextShape | aleha_tools/cams.py:255-268 | a known unit gives one of 15, 24, 25, 30, 48, 50 or 60 in decimal before "fps"; an unknown unit gives "None" |
| Cams.CamsElement | aleha_tools/cams.py:326-352 | a command name is recognised exactly when it is one of the nine the table lists; "None" never is |
| Cams.ApplySelectionShowsRecognised | aleha_tools/cams.py:306-377 | the six sections are cleared first; a section then gets a display exactly when its slot names a recognised command that is not "None" |
| Cams.DefaultHudShowsCameraNameOnly | aleha_tools/cams.py:643-652 | the default preset's "Axis View" is not a recognised command, so only the camera name is shown |
| Cams.InitialKeysComplete | aleha_tools/cams.py:672-681 | the initial settings have exactly the eight keys, each once |
| Cams.MigrateFrom | aleha_tools/cams.py:686-694 | the only error is KeyError, and a successful migration keeps the keys |
| Cams.MigrateKeepsKeys | aleha_tools/cams.py:686-694 | migration keeps the keys; each value is kept or becomes `(value, True)`; the first key walked ends up a tuple |
| Cams.MigrateAllPlain | aleha_tools/cams.py:686-694 | when no walked value is a tuple, every key other than `skip_update` is wrapped and `skip_update` is kept |
| Cams.MigrateStopsAtFirstTuple | aleha_tools/cams.py:687-694 | the instance for the first key, "camera": a tuple there stops the walk with nothing changed; its absence raises |
| Cams.FirstStop | aleha_tools/cams.py:687-694 | the first key the walk stops at: every earlier key is `skip_update` or a present plain value, and the key there is missing or a tuple |
| Cams.MigrateStopsAt | aleha_tools/cams.py:686-694 | with `j` such a stopping index: KeyError exactly when the key at `j` is missing; otherwise the keys are kept and exactly the keys before `j`, `skip_update` aside, are wrapped as `(value, True)` |
| Cams.MigrateStopsAtFirst | aleha_tools/cams.py:686-694 | for any distinct keys and any dictionary: KeyError exactly when the first stopping key is missing; otherwise exactly the keys before it, `skip_update` aside, are wrapped and every other value is untouched |
| Cams.MigrateIdempotent | aleha_tools/cams.py:686-694 | migrating an already-migrated dictionary changes nothing |
| Cams.Migrate | aleha_tools/cams.py:686-694 | the loop computes the migration |
| Cams.ApplyOverridesSpec | aleha_tools/cams.py:701-714 | `ApplyOverrides`: a key is overwritten exactly when its argument is truthy; every other key keeps its value |
| Cams.ApplyOverridesIdempotent | aleha_tools/cams.py:701-714 | no truthy argument changes nothing, and applying the same arguments twice is the same as once |
| Cams.Prefs.SavePrefs | aleha_tools/cams.py:639-656 | stores the given prefs, or the initial settings when none are given; the default "hud" preset is added only when none exists; it raises when neither is there |
| Cams.Prefs.GetPrefs | aleha_tools/cams.py:617-637 | stored settings are read as they are; missing ones are saved anew, which needs the initial settings; when that fails the file is unchanged |
| Cams.Prefs.ProcessPrefs | aleha_tools/cams.py:658-730 | defines the initial settings, migrates legacy data, applies the truthy overrides, reads the eight values, and saves the prefs (or the initial settings on reset); with no save and no legacy data the file and the HUD table are unchanged; a successful save adds the default HUD preset only when there was none |
| Cams.Prefs.StartupAsWritten | aleha_tools/cams.py:66-67 | with no prefs file, start-up fails with AttributeError and the file stays as it was |
| Cams.Prefs.Startup | aleha_tools/cams.py:66-67 | with the initial settings defined first, a first launch stores the default settings and HUD preset |
| Cams.FirstLaunchAsWritten | aleha_tools/cams.py:639-641 | a first launch as written fails with AttributeError |
| Cams.FirstLaunch | aleha_tools/cams.py:639-681 | the corrected first launch succeeds and writes the default HUD preset and the initial settings |
| Hud.HudOpsClearFirst | aleha_tools/cams_tools/HUDWindow.py:234-236 | applying a preset sends the six removals first |
| Hud.HudOps | aleha_tools/cams_tools/HUDWindow.py:234-284 | six to twelve commands: the six removals, then only show commands |
| Hud.HudOpsShowsExactlyShownSlots | aleha_tools/cams_tools/HUDWindow.py:247-284 | a slot's section gets a show command exactly when the slot is not "None" and its name is recognised |
| Hud.ShowOpsBelongToSlots | aleha_tools/cams_tools/HUDWindow.py:238-284 | each show command goes to its slot's position and section, with that slot's element |
| HudEditor.Load | aleha_tools/cams_tools/HUDWindow.py:447-451 | each drop-down shows an offered name or keeps what it showed before |
| HudEditor.LoadShows | aleha_tools/cams_tools/HUDWindow.py:447-451 | loading a preset whose names the drop-downs offer shows exactly that preset; an unknown name leaves the drop-down as it was |
| HudEditor.FirstFreeSpec | aleha_tools/cams_tools/HUDWindow.py:359-364 | from a given `r`, the search returns the first untaken candidate, or the candidate for 29 |
| HudEditor.NewNameSpec | aleha_tools/cams_tools/HUDWindow.py:359-364 | `NewName` (`get_new_name`): the base name if it is unused; otherwise the smallest unused "name r" for r in 1..29; a taken name only when all thirty are taken, and then "name 29" |
| HudEditor.PresetEditor.FreshName | aleha_tools/cams_tools/HUDWindow.py:359-364 | the loop computes that name |
| HudEditor.EditorElement | aleha_tools/cams_tools/HUDWindow.py:252-271 | a name is recognised exactly when it is a drop-down item other than "None" |
| HudEditor.EditorElementKnowsItsItems | aleha_tools/cams_tools/HUDWindow.py:252-271 | "Camera Name", "View Axis" and "Focal Length" are not recognised by the editor |
| HudEditor.EditorApplyShowsOffered | aleha_tools/cams_tools/HUDWindow.py:234-284 | apply clears the six sections, then a section gets a display exactly when its slot names a drop-down item other than "None" |
| HudEditor.ApplyUnknownShowsNothing | aleha_tools/cams_tools/HUDWindow.py:247-271 | a preset whose names are all unrecognised, such as the Cams default, only clears the sections |
| HudEditor.PresetEditor.Open | aleha_tools/cams_tools/HUDWindow.py:298-330 | with no file, the store is exactly {"Default": all six slots "None"}, and that is also written; then some preset is displayed and titled |
| HudEditor.PresetEditor.RefreshUi | aleha_tools/cams_tools/HUDWindow.py:409-460 | an empty store displays nothing; a menu change loads the named preset; otherwise some preset is loaded; the title and the displayed preset then name it |
| HudEditor.PresetEditor.SavePrefs | aleha_tools/cams_tools/HUDWindow.py:332-356 | a changed title moves the preset from the old key to the new one, with the old key gone and the displayed preset the new title; the six drop-downs are written into the titled preset; a missing key clears the title instead |
| HudEditor.PresetEditor.NewPreset | aleha_tools/cams_tools/HUDWindow.py:366-385 | stores the new preset, all "None" or the loaded copy of the current one, under the fresh name: a new key unless all thirty candidates are taken, and then "base 29" is overwritten; every other preset is untouched; duplicating a missing preset raises with no change, and the file is left as it was |
| HudEditor.PresetEditor.Delete | aleha_tools/cams_tools/HUDWindow.py:388-407 | removes exactly the current preset's key; the remaining presets are unchanged except that the one now shown gets the drop-downs written back; deleting the last preset clears the title and leaves the drop-downs; an unconfirmed or missing deletion changes nothing, the file included |
| HudEditor.PresetEditor.Apply | aleha_tools/cams_tools/HUDWindow.py:168-293 | saves, clears the six sections, then sends the show commands of the titled preset; if that title no longer names a preset, only the six removals are sent and KeyError is raised; a pending rename moves the displayed preset to the typed title with the drop-downs' values, and those values are what is sent; a rename of a missing preset leaves the store alone, and a missing title is cleared |
| HudEditor.NewThenDelete | aleha_tools/cams_tools/HUDWindow.py:366-407 | with no file, adding a preset and deleting it again leaves exactly the all-"None" "Default" preset |
| HudEditor.RenameDefault | aleha_tools/cams_tools/HUDWindow.py:336-350 | with no file, typing a new title and saving renames "Default" to it |
| Scene.Host.SetTime | aleha_tools/spaceswitch.py:396 | `currentTime(frame)` sets the current time and nothing else |
| Scene.Host.QueryWorld | aleha_tools/spaceswitch.py:362 | `xform(q=True, ws=True, matrix=True)` reads the object's world matrix at the current time |
| Scene.Host.WriteWorld | aleha_tools/spaceswitch.py:364 | `xform(ws=True, matrix=m)` sets that object's world matrix at the current time and no other |
| Scene.Host.SetEnum | aleha_tools/spaceswitch.py:363 | `setAttr` raises on a locked plug with nothing changed; otherwise it records the value at the current time and may move any object at the current time only |
| Scene.Host.OpenChunk | aleha_tools/spaceswitch.py:368 | opens one undo chunk |
| Scene.Host.CloseChunk | aleha_tools/spaceswitch.py:425 | closes one undo chunk |
| Scene.Host.SuspendRefresh | aleha_tools/spaceswitch.py:372 | sets the refresh-suspend flag |
| Scene.Host.SetListening | aleha_tools/spaceswitch.py:369 | removes or re-adds the script jobs |
| Scene.Host.Report | aleha_tools/spaceswitch.py:391 | appends one progress-bar call |

## Left out

- Qt widgets, layouts, menus, colour pickers, sliders and dialogs are not modelled. Confirmation
  dialogs become a boolean parameter.
- The timeline marker painting is not modelled. Timeline ranges are taken as integers.
- Fractional frames, and matrices as numbers, are not modelled: a matrix is an opaque `Mat`.
- `playbackOptions(sv=False)` on Maya 2024 and later is not modelled.
- File reading and writing through `eval` and `str` are modelled only as the dictionary contents.
  Update checks, `urlopen` and the updater are not modelled.
- Script-job registration is a single flag on the host. Removing and re-adding jobs is not
  modelled beyond that flag.
- Both tools reset the HUD label and value colours to Maya's default (colour 16, dormant) after
  applying a preset (aleha_tools/cams_tools/HUDWindow.py:287-288, aleha_tools/cams.py:380-381).
  These two `displayColor` host calls are not part of `Hud.HudOps`, which lists only the
  section removals and shows.
- The HUD value providers (time, date, `USER`, scene name, focal length) are not modelled. Each is
  named by a `Provider` value.
- Python 2 dictionary iteration order is replaced by the written order. This affects the HUD
  position table, `initial_settings` and `keys()[0]`; the last is modelled as "some key".
- `isalnum` is modelled for ASCII letters and digits only. Other Unicode alphanumerics are not
  modelled.
- Changelog items are taken as strings: `str(item)` on non-string items is not modelled.
- Deleting the legacy storage node is not modelled.
- The menu entries of the preset editor are not modelled.
- The title field's maximum length is not modelled.
- HudEditor.PresetEditor.RefreshUi: the "unsaved changes" prompt on a menu change is not modelled.
  That prompt may save the preset being left.
- HudEditor.PresetEditor.Open: stored presets are assumed to have all six slot keys. The source
  raises `KeyError` when loading a preset that lacks one.
- SpaceSwitch.GetEnumMembers: `listAnimatable` returning `None` (a `TypeError` in the source) is
  taken as an empty list.
- SpaceSwitchLegacy.GetEnum: the `None` result makes the caller's `len(...)` raise. The
  model returns it and does not model the caller.
- Cams.Prefs.SavePrefs: an empty prefs dictionary and a missing one are not distinguished, as in
  the source's truthiness test.
- Two behaviours of the code that the model follows as written:
  - the current time is restored only on the success path inside the bake's `try` block
    (aleha_tools/spaceswitch.py:421, spaceswitch_pyside2.py:345). A `setAttr` on a locked enum
    plug raises out of the bake and leaves the current time at the first keyframe;
  - the newer tool ends its progress bar and starts a new one of `len(keyframes)` steps between
    the two passes (aleha_tools/spaceswitch.py:406-408), where the older tool runs one bar of
    `2 * len(keyframes)` steps.

## Findings

| source | as written | input that shows it | evidently intended | confidence | as-written member | corrected member |
|---|---|---|---|---|---|---|
| aleha_tools/cams.py:66-67 | `get_prefs` runs before `process_prefs`. With no prefs file, `get_prefs` calls `save_prefs()` with no prefs (line 637), and that reads `self.initial_settings` (line 641), which only `process_prefs` defines (line 672) | first launch, with no `camsPrefs.aleha` file | the initial settings are defined before the first save, so a first launch stores them with the default HUD preset | not executed | Cams.FirstLaunchAsWritten | Cams.FirstLaunch |

=== FILE: cams.dfy ===
/** The Cams tool (aleha_tools/cams.py): the update check and its changelog message, the camera
    button labels, the heads-up-display commands it sends for a six-slot preset, and the
    preferences it keeps: a table of HUD presets and a dictionary of default camera settings,
    migrated from a legacy scene node, partly overridden from the settings window, and saved. */
module Cams {
  import opened Wrappers
  import Text
  import Hud

  // ---------------------------------------------------------------------------------------
  // The update check

  /** The version of the tool. */
  const Version: string := "0.0.93"

  /** An update is offered when the published version string is greater than `Version`, compared
      as plain strings. */
  predicate UpdateOffered(remote: string)
  {
    Text.LexLess(Version, remote)
  }

  /** The comparison is lexicographic, not numeric: "0.0.94" and "0.1" are offered, the
      numerically newer "0.0.100" is not, and the current version is not. */
  lemma UpdateOfferedExamples()
    ensures UpdateOffered("0.0.94")
    ensures UpdateOffered("0.1")
    ensures !UpdateOffered("0.0.100")
    ensures !UpdateOffered(Version)
  {
    Text.LexLessIrreflexive(Version);
  }

  /** An update is offered exactly when the published version differs from `Version` and is not
      below it, so at most one of two different versions would offer the other. */
  lemma UpdateOfferedOrder(remote: string)
    ensures UpdateOffered(remote) <==> remote != Version && !Text.LexLess(remote, Version)
  {
    if UpdateOffered(remote) {
      Text.LexLessIrreflexive(Version);
      if Text.LexLess(remote, Version) {
        Text.LexLessTransitive(Version, remote, Version);
      }
    } else if remote != Version {
      Text.LexLessTotal(remote, Version);
    }
  }

  // ---------------------------------------------------------------------------------------
  // The changelog message (`convert_list_to_string`)

  /** The closed groups and the open group after the grouping loop has seen `items`: a non-empty
      item joins the open group, an empty one closes a non-empty open group. */
  function Scan(items: seq<string>): (seq<seq<string>>, seq<string>)
  {
    if items == [] then ([], []) else ScanStep(Scan(items[..|items| - 1]), items[|items| - 1])
  }

  /** One turn of the grouping loop. */
  function ScanStep(st: (seq<seq<string>>, seq<string>), x: string): (seq<seq<string>>, seq<string>)
  {
    if x != "" then (st.0, st.1 + [x])
    else if st.1 != [] then (st.0 + [st.1], [])
    else st
  }

  lemma ScanSnoc(items: seq<string>, x: string)
    ensures Scan(items + [x]) == ScanStep(Scan(items), x)
  {
    assert (items + [x])[..|items|] == items;
  }

  /** The groups of the changelog: the closed groups and the last open one if non-empty. */
  function Groups(items: seq<string>): seq<seq<string>>
  {
    var st := Scan(items);
    st.0 + (if st.1 == [] then [] else [st.1])
  }

  function NonEmptyItems(items: seq<string>): seq<string>
  {
    if items == [] then []
    else NonEmptyItems(items[..|items| - 1]) + (if items[|items| - 1] != "" then [items[|items| - 1]] else [])
  }

  function Flatten(gs: seq<seq<string>>): seq<string>
  {
    if gs == [] then [] else Flatten(gs[..|gs| - 1]) + gs[|gs| - 1]
  }

  lemma FlattenAppend(gs: seq<seq<string>>, g: seq<string>)
    ensures Flatten(gs + [g]) == Flatten(gs) + g
  {
    assert (gs + [g])[..|gs|] == gs;
  }

  /** The loop's state keeps every non-empty item once, in order, and no group is empty or holds
      an empty item. */
  lemma {:induction false} ScanInvariant(items: seq<string>)
    ensures Flatten(Scan(items).0) + Scan(items).1 == NonEmptyItems(items)
    ensures forall g :: g in Scan(items).0 ==> g != [] && "" !in g
    ensures "" !in Scan(items).1
  {
    if items != [] {
      var init := items[..|items| - 1];
      ScanInvariant(init);
      var prev := Scan(init);
      assert Scan(items) == ScanStep(prev, items[|items| - 1]);
      if items[|items| - 1] == "" && prev.1 != [] {
        FlattenAppend(prev.0, prev.1);
      }
    }
  }

  /** The changelog groups are the runs of non-empty items between empty ones: none is empty,
      none holds an empty item, and together, in order, they are exactly the non-empty items. */
  lemma GroupsPartition(items: seq<string>)
    ensures forall g :: g in Groups(items) ==> g != [] && "" !in g
    ensures Flatten(Groups(items)) == NonEmptyItems(items)
  {
    ScanInvariant(items);
    var st := Scan(items);
    if st.1 != [] {
      FlattenAppend(st.0, st.1);
    } else {
      assert Groups(items) == st.0;
    }
  }

  /** Once the open group is empty, the loop treats what follows as a fresh changelog whose
      groups are appended to those already closed. */
  lemma {:induction false} ScanAfterClosed(p: seq<string>, q: seq<string>)
    requires Scan(p).1 == []
    ensures Scan(p + q) == (Scan(p).0 + Scan(q).0, Scan(q).1)
    decreases |q|
  {
    if q == [] {
      assert p + q == p;
      assert Scan(q) == ([], []);
      assert Scan(p).0 + [] == Scan(p).0;
    } else {
      var init := q[..|q| - 1];
      var x := q[|q| - 1];
      ScanAfterClosed(p, init);
      assert q == init + [x];
      assert p + q == (p + init) + [x];
      ScanSnoc(p + init, x);
      ScanSnoc(init, x);
      var st := Scan(init);
      if x == "" && st.1 != [] {
        assert Scan(p).0 + st.0 + [st.1] == Scan(p).0 + (st.0 + [st.1]);
      }
    }
  }

  /** A run of non-empty items is still open after the loop has seen it. */
  lemma {:induction false} ScanRun(a: seq<string>)
    requires "" !in a
    ensures Scan(a) == ([], a)
  {
    if a != [] {
      var init, x := a[..|a| - 1], a[|a| - 1];
      assert a == init + [x];
      assert "" !in init;
      ScanRun(init);
      assert x != "";
      ScanSnoc(init, x);
      assert [] + [x] == [x];
    } else {
      assert Scan(a) == ([], []);
    }
  }

  /** A changelog that is one run of non-empty items is one group. */
  lemma GroupsRun(a: seq<string>)
    requires a != [] && "" !in a
    ensures Groups(a) == [a]
  {
    ScanRun(a);
  }

  /** A run of non-empty items followed by a blank one is the first group, and the rest of the
      changelog is grouped on its own. */
  lemma GroupsRunThenBlank(a: seq<string>, b: seq<string>)
    requires a != [] && "" !in a
    ensures Groups(a + [""] + b) == [a] + Groups(b)
  {
    ScanRun(a);
    ScanSnoc(a, "");
    ScanAfterClosed(a + [""], b);
    var st := Scan(b);
    if st.1 != [] {
      assert [a] + st.0 + [st.1] == [a] + (st.0 + [st.1]);
    }
  }

  /** A leading blank item is dropped. */
  lemma GroupsLeadingBlank(b: seq<string>)
    ensures Groups([""] + b) == Groups(b)
  {
    ScanSnoc([], "");
    assert [] + [""] == [""];
    ScanAfterClosed([""], b);
  }

  /** `"\n".join(g)` for every group. */
  function GroupTexts(gs: seq<seq<string>>): (r: seq<string>)
    ensures |r| == |gs|
    ensures forall i :: 0 <= i < |gs| ==> r[i] == Text.Join(gs[i], "\n")
  {
    if gs == [] then [] else GroupTexts(gs[..|gs| - 1]) + [Text.Join(gs[|gs| - 1], "\n")]
  }

  const AndMore: seq<string> := ["== And more =="]

  /** The groups the message shows: the changelog's first four groups at most, in order, then the
      closing group. */
  function ShownGroups(items: seq<string>): (shown: seq<seq<string>>)
    ensures 1 <= |shown| <= 5
    ensures |shown| - 1 <= |Groups(items)| && shown[..|shown| - 1] == Groups(items)[..|shown| - 1]
    ensures shown[|shown| - 1] == AndMore
    ensures |Groups(items)| <= 4 ==> shown == Groups(items) + [AndMore]
    ensures |Groups(items)| >= 4 ==> shown == Groups(items)[..4] + [AndMore]
  {
    var gs := Groups(items);
    gs[..if |gs| < 4 then |gs| else 4] + [AndMore]
  }

  /** The changelog text shown in the update dialog. */
  function ChangelogMessage(items: seq<string>): (r: string)
    ensures Text.EndsWith(r, "== And more ==")
  {
    var shown := ShownGroups(items);
    Text.JoinEndsWithLast(GroupTexts(shown), "\n\n");
    assert GroupTexts(shown)[|shown| - 1] == Text.Join(AndMore, "\n");
    Text.Join(GroupTexts(shown), "\n\n")
  }

  /** `convert_list_to_string`, the loop that builds the groups. */
  method ConvertListToString(changelog: seq<string>) returns (text: string)
    ensures text == ChangelogMessage(changelog)
  {
    var result: seq<seq<string>> := [];
    var sublst: seq<string> := [];
    var i := 0;
    while i < |changelog|
      invariant 0 <= i <= |changelog|
      invariant (result, sublst) == Scan(changelog[..i])
    {
      var item := changelog[i];
      assert changelog[..i + 1][..i] == changelog[..i];
      if item != "" {
        sublst := sublst + [item];
      } else if sublst != [] {
        result := result + [sublst];
        sublst := [];
      }
      i := i + 1;
    }
    assert changelog[..i] == changelog;
    if sublst != [] {
      result := result + [sublst];
    }
    assert result == Groups(changelog);
    result := result[..if |result| < 4 then |result| else 4];
    result := result + [AndMore];
    text := Text.Join(GroupTexts(result), "\n\n");
  }

  /** Three groups separated by blank items, with a doubled and a trailing blank, make three
      groups and a message of them plus the closing line. */
  lemma ChangelogScenario()
    ensures Groups(["Fix", "", "", "Add", "Docs", "", "Tidy", ""]) == [["Fix"], ["Add", "Docs"], ["Tidy"]]
  {
    assert [] + [["Fix"]] == [["Fix"]] && [] + ["Add"] == ["Add"] && ["Add"] + ["Docs"] == ["Add", "Docs"];
    assert [["Fix"]] + [["Add", "Docs"]] == [["Fix"], ["Add", "Docs"]] && [] + ["Tidy"] == ["Tidy"];
    assert [["Fix"], ["Add", "Docs"]] + [["Tidy"]] == [["Fix"], ["Add", "Docs"], ["Tidy"]];
    ScanSnoc([], "Fix");
    assert [] + ["Fix"] == ["Fix"];
    assert Scan(["Fix"]) == ([], ["Fix"]);
    ScanSnoc(["Fix"], "");
    assert ["Fix"] + [""] == ["Fix", ""];
    assert Scan(["Fix", ""]) == ([["Fix"]], []);
    ScanSnoc(["Fix", ""], "");
    assert ["Fix", ""] + [""] == ["Fix", "", ""];
    assert Scan(["Fix", "", ""]) == ([["Fix"]], []);
    ScanSnoc(["Fix", "", ""], "Add");
    assert ["Fix", "", ""] + ["Add"] == ["Fix", "", "", "Add"];
    assert Scan(["Fix", "", "", "Add"]) == ([["Fix"]], ["Add"]);
    ScanSnoc(["Fix", "", "", "Add"], "Docs");
    assert ["Fix", "", "", "Add"] + ["Docs"] == ["Fix", "", "", "Add", "Docs"];
    assert Scan(["Fix", "", "", "Add", "Docs"]) == ([["Fix"]], ["Add", "Docs"]);
    ScanSnoc(["Fix", "", "", "Add", "Docs"], "");
    assert ["Fix", "", "", "Add", "Docs"] + [""] == ["Fix", "", "", "Add", "Docs", ""];
    assert Scan(["Fix", "", "", "Add", "Docs", ""]) == ([["Fix"], ["Add", "Docs"]], []);
    ScanSnoc(["Fix", "", "", "Add", "Docs", ""], "Tidy");
    assert ["Fix", "", "", "Add", "Docs", ""] + ["Tidy"] == ["Fix", "", "", "Add", "Docs", "", "Tidy"];
    assert Scan(["Fix", "", "", "Add", "Docs", "", "Tidy"]) == ([["Fix"], ["Add", "Docs"]], ["Tidy"]);
    ScanSnoc(["Fix", "", "", "Add", "Docs", "", "Tidy"], "");
    assert ["Fix", "", "", "Add", "Docs", "", "Tidy"] + [""] == ["Fix", "", "", "Add", "Docs", "", "Tidy", ""];
  }

  // ---------------------------------------------------------------------------------------
  // Camera buttons

  /** The label of a camera button: a name longer than 8 characters is shown as "..." and its
      last 6 characters. Labels never exceed 9 characters, end like the camera name, and short
      names are kept. */
  function CameraLabel(c: string): (r: string)
    ensures |r| <= 9
    ensures |c| <= 8 ==> r == c
    ensures |c| > 8 ==> |r| == 9 && r[..3] == "..." && Text.EndsWith(c, r[3..])
    ensures |c| > 9 ==> r != c
  {
    if |c| > 8 then "..." + c[|c| - 6..] else c
  }

  // ---------------------------------------------------------------------------------------
  // The heads-up display (`apply_selection`)

  /** `HUD_framerate`: the frames per second of a named time unit. */
  function Fps(unit: string): Option<nat>
  {
    if unit == "game" then Some(15)
    else if unit == "film" then Some(24)
    else if unit == "pal" then Some(25)
    else if unit == "ntsc" then Some(30)
    else if unit == "show" then Some(48)
    else if unit == "palf" then Some(50)
    else if unit == "ntscf" then Some(60)
    else None
  }

  /** The framerate text: the number, or "None" for an unknown unit, followed by "fps". */
  function FramerateText(unit: string): (r: string)
    ensures Text.EndsWith(r, "fps")
  {
    (if Fps(unit).Some? then Text.NatToString(Fps(unit).value) else "None") + "fps"
  }

  /** For a known unit what precedes "fps" reads back as the unit's rate, for an unknown one it
      is "None". */
  lemma FramerateTextShape(unit: string)
    ensures var t := FramerateText(unit); var head := t[..|t| - 3];
      && (Fps(unit).Some? ==> (forall i :: 0 <= i < |head| ==> '0' <= head[i] <= '9')
                               && Text.DigitsValue(head) == Fps(unit).value)
      && (Fps(unit).None? ==> head == "None")
    ensures Fps(unit).Some? ==> Fps(unit).value in {15, 24, 25, 30, 48, 50, 60}
  {
    var t := FramerateText(unit);
    if Fps(unit).Some? {
      var digits := Text.NatToString(Fps(unit).value);
      assert t[..|t| - 3] == digits;
      Text.NatToStringRoundTrip(Fps(unit).value);
    } else {
      assert t[..|t| - 3] == "None";
    }
  }

  /** The command names this tool recognises. */
  const CamsCommands: seq<string> := ["Current Frame", "Total Frames", "Framerate", "Username", "Scene Name",
    "Focal Length", "Date", "Camera Name", "View Axis"]

  /** The HUD element a command name stands for in this tool; other names, "None" among them,
      show nothing. */
  function CamsElement(cmd: string): (r: Option<Hud.Element>)
    ensures r.Some? <==> cmd in CamsCommands
    ensures cmd == "None" ==> r.None?
  {
    if cmd == "Current Frame" then Some(Hud.Command("Frame:", Hud.CurrentFrame))
    else if cmd == "Total Frames" then Some(Hud.Command("Total:", Hud.TotalFrames))
    else if cmd == "Framerate" then Some(Hud.Command("", Hud.Framerate))
    else if cmd == "Username" then Some(Hud.Command("User:", Hud.Username))
    else if cmd == "Scene Name" then Some(Hud.Command("", Hud.SceneName))
    else if cmd == "Focal Length" then Some(Hud.Command("Focal Length:", Hud.FocalLength))
    else if cmd == "Date" then Some(Hud.Command("", Hud.Date))
    else if cmd == "Camera Name" then Some(Hud.Preset("cameraNames"))
    else if cmd == "View Axis" then Some(Hud.Preset("viewAxis"))
    else None
  }

  /** `apply_selection`: the HUD commands sent for a preset. */
  function ApplySelection(s: Hud.Slots): seq<Hud.HudOp>
  {
    Hud.HudOps(s, CamsElement)
  }

  /** The preset stored when the preferences have none: the camera name at bottom centre and
      "Axis View" at bottom left. */
  const DefaultHud: Hud.Slots := Hud.Slots("None", "None", "None", "Axis View", "Camera Name", "None")

  /** The six sections are cleared first, and a section then receives a command exactly when
      its slot names a recognised command. */
  lemma ApplySelectionShowsRecognised(s: Hud.Slots)
    ensures ApplySelection(s)[..6] == Hud.Removals
    ensures forall j :: 0 <= j < 6 ==>
      (Hud.Positions[j].section in Hud.Sections(ApplySelection(s)[6..]) <==>
        Hud.Slot(s, j) != "None" && CamsElement(Hud.Slot(s, j)).Some?)
  {
    Hud.HudOpsClearFirst(s, CamsElement);
    Hud.HudOpsShowsExactlyShownSlots(s, CamsElement);
  }

  /** The default preset shows only the camera name: "Axis View" is not one of the recognised
      names ("View Axis" is), so the bottom-left section stays empty. */
  lemma DefaultHudShowsCameraNameOnly()
    ensures CamsElement("Axis View").None?
    ensures ApplySelection(DefaultHud) == Hud.Removals + [Hud.Show("bottom_center", 7, "center", Hud.Preset("cameraNames"))]
  {
    assert Hud.Slot(DefaultHud, 3) == "Axis View" && Hud.Slot(DefaultHud, 4) == "Camera Name";
    assert Hud.SlotOps(DefaultHud, 0, CamsElement) == [];
    assert Hud.SlotOps(DefaultHud, 1, CamsElement) == [];
    assert Hud.SlotOps(DefaultHud, 2, CamsElement) == [];
    assert Hud.SlotOps(DefaultHud, 3, CamsElement) == [];
    assert Hud.SlotOps(DefaultHud, 5, CamsElement) == [];
  }

  // ---------------------------------------------------------------------------------------
  // Settings values

  /** The values the settings dictionary holds. Integers and floats are both `VNum`. */
  datatype Val = VNone | VBool(b: bool) | VNum(x: real) | VStr(s: string) | VList(items: seq<Val>) | VTuple(items: seq<Val>)

  /** Python truthiness. */
  predicate Truthy(v: Val)
  {
    match v
    case VNone => false
    case VBool(b) => b
    case VNum(x) => x != 0.0
    case VStr(s) => s != ""
    case VList(items) => items != []
    case VTuple(items) => items != []
  }

  /** A settings dictionary. The empty dictionary also stands for a missing one. */
  type Settings = map<string, Val>

  /** `(value, True)`: a setting together with its "enabled" flag. */
  function Enabled(v: Val): Val
  {
    VTuple([v, VBool(true)])
  }

  /** The keys of the initial settings, in the order the code reads them. */
  const InitialKeys: seq<string> :=
    ["camera", "overscan", "near_clip", "far_clip", "display_resolution", "mask_opacity", "mask_color", "skip_update"]

  const InitialSettings: Settings := map[
    "camera" := Enabled(VStr("persp")),
    "overscan" := Enabled(VNum(1.0)),
    "near_clip" := Enabled(VNum(1.0)),
    "far_clip" := Enabled(VNum(10000.0)),
    "display_resolution" := Enabled(VNum(1.0)),
    "mask_opacity" := Enabled(VNum(1.0)),
    "mask_color" := Enabled(VList([VNum(0.0), VNum(0.0), VNum(0.0)])),
    "skip_update" := VBool(false)
  ]

  /** The initial settings hold exactly the keys the code reads, each once. */
  lemma InitialKeysComplete()
    ensures forall k :: k in InitialSettings <==> k in InitialKeys
    ensures forall i, j :: 0 <= i < j < |InitialKeys| ==> InitialKeys[i] != InitialKeys[j]
    ensures InitialSettings != map[]
  {
    assert "camera" in InitialSettings;
  }

  // ---------------------------------------------------------------------------------------
  // Migration from the legacy scene node

  /** The migration loop over `keys`: "skip_update" is passed over, a missing key raises, a
      plain value is wrapped as enabled, and the first value that is already a tuple ends it. */
  function MigrateFrom(keys: seq<string>, s: Settings): (r: Result<Settings>)
    ensures r.Err? ==> r == Err("KeyError")
    ensures r.Ok? ==> r.value.Keys == s.Keys
  {
    if keys == [] then Ok(s)
    else if keys[0] == "skip_update" then MigrateFrom(keys[1..], s)
    else if keys[0] !in s then Err("KeyError")
    else if s[keys[0]].VTuple? then Ok(s)
    else MigrateFrom(keys[1..], s[keys[0] := Enabled(s[keys[0]])])
  }

  /** The migration keeps the keys and changes a value only by wrapping a plain one as enabled;
      and when the first key it visits is not "skip_update", that key ends up a tuple. */
  lemma {:induction false} MigrateKeepsKeys(keys: seq<string>, s: Settings)
    ensures MigrateFrom(keys, s).Ok? ==>
      var m := MigrateFrom(keys, s).value;
      && (forall k :: k in m <==> k in s)
      && (forall k :: k in s ==> m[k] == s[k] || (!s[k].VTuple? && m[k] == Enabled(s[k])))
      && (keys != [] && keys[0] != "skip_update" ==> m[keys[0]].VTuple?)
    decreases |keys|
  {
    if keys != [] && keys[0] != "skip_update" && keys[0] in s && !s[keys[0]].VTuple? {
      var s' := s[keys[0] := Enabled(s[keys[0]])];
      MigrateKeepsKeys(keys[1..], s');
    } else if keys != [] && keys[0] == "skip_update" {
      MigrateKeepsKeys(keys[1..], s);
    }
  }

  /** A legacy dictionary of plain values has every visited key wrapped, and nothing else changed. */
  lemma {:induction false} MigrateAllPlain(keys: seq<string>, s: Settings)
    requires forall i, j :: 0 <= i < j < |keys| ==> keys[i] != keys[j]
    requires forall k :: k in keys && k != "skip_update" ==> k in s && !s[k].VTuple?
    ensures MigrateFrom(keys, s).Ok?
    ensures var m := MigrateFrom(keys, s).value;
      && (forall k :: k in m <==> k in s)
      && (forall k :: k in s ==> m[k] == if k in keys && k != "skip_update" then Enabled(s[k]) else s[k])
    decreases |keys|
  {
    if keys != [] {
      var k0 := keys[0];
      assert forall k :: k in keys <==> k == k0 || k in keys[1..];
      assert forall j :: 0 <= j < |keys| - 1 ==> keys[1..][j] == keys[j + 1] != k0;
      assert k0 !in keys[1..];
      if k0 == "skip_update" {
        MigrateAllPlain(keys[1..], s);
      } else {
        var s' := s[k0 := Enabled(s[k0])];
        MigrateAllPlain(keys[1..], s');
      }
    }
  }

  /** Migrating twice is migrating once. */
  lemma MigrateIdempotent(s: Settings)
    requires MigrateFrom(InitialKeys, s).Ok?
    ensures MigrateFrom(InitialKeys, MigrateFrom(InitialKeys, s).value) == MigrateFrom(InitialKeys, s)
  {
    MigrateKeepsKeys(InitialKeys, s);
  }

  /** A dictionary whose "camera" is already a tuple is left exactly as it is, even when later
      keys still hold plain values; a dictionary without "camera" raises. */
  lemma MigrateStopsAtFirstTuple(s: Settings)
    ensures "camera" in s && s["camera"].VTuple? ==> MigrateFrom(InitialKeys, s) == Ok(s)
    ensures "camera" !in s ==> MigrateFrom(InitialKeys, s) == Err("KeyError")
  {
  }

  /** Whether the migration walks past key `k` of `s`: it is skipped, or present with a plain
      value that gets wrapped. */
  predicate WalksPast(k: string, s: Settings)
  {
    k == "skip_update" || (k in s && !s[k].VTuple?)
  }

  /** The index of the first key the migration stops at (missing, or already a tuple), or the
      number of keys when it walks past all of them. */
  function FirstStop(keys: seq<string>, s: Settings): (j: nat)
    ensures j <= |keys|
    ensures forall i :: 0 <= i < j ==> WalksPast(keys[i], s)
    ensures j < |keys| ==> !WalksPast(keys[j], s)
  {
    if keys == [] || !WalksPast(keys[0], s) then 0 else 1 + FirstStop(keys[1..], s)
  }

  /** The migration of distinct keys stopped at index `j`: it raises exactly when the key there is
      missing; otherwise the result is `s` with exactly the keys before `j`, "skip_update" aside,
      wrapped as enabled. */
  lemma {:induction false} MigrateStopsAt(keys: seq<string>, s: Settings, j: nat)
    requires forall a, b :: 0 <= a < b < |keys| ==> keys[a] != keys[b]
    requires j <= |keys|
    requires forall i :: 0 <= i < j ==> WalksPast(keys[i], s)
    requires j < |keys| ==> !WalksPast(keys[j], s)
    ensures j < |keys| && keys[j] !in s ==> MigrateFrom(keys, s) == Err("KeyError")
    ensures !(j < |keys| && keys[j] !in s) ==> MigrateFrom(keys, s).Ok?
    ensures MigrateFrom(keys, s).Ok? ==>
      var m := MigrateFrom(keys, s).value;
      && (forall k :: k in m <==> k in s)
      && (forall k :: k in s ==> m[k] == if k in keys[..j] && k != "skip_update" then Enabled(s[k]) else s[k])
    decreases |keys|
  {
    if keys != [] && j > 0 {
      var k0 := keys[0];
      assert forall i :: 0 <= i < |keys| - 1 ==> keys[1..][i] == keys[i + 1] != k0;
      assert keys[..j] == [k0] + keys[1..][..j - 1];
      assert k0 !in keys[1..][..j - 1];
      var s' := if k0 == "skip_update" then s else s[k0 := Enabled(s[k0])];
      assert forall i :: 0 <= i < j - 1 ==> WalksPast(keys[1..][i], s') by {
        forall i | 0 <= i < j - 1
          ensures WalksPast(keys[1..][i], s')
        {
          assert WalksPast(keys[i + 1], s);
        }
      }
      assert j - 1 < |keys| - 1 ==> keys[j] != k0 && keys[1..][j - 1] == keys[j];
      MigrateStopsAt(keys[1..], s', j - 1);
    } else if keys != [] {
      assert keys[..j] == [];
    }
  }

  /** The migration of distinct keys, whatever the dictionary: with `j` the first key it stops at,
      it raises exactly when that key is missing, and otherwise yields `s` with exactly the keys
      before `j`, "skip_update" aside, wrapped as enabled and every other value untouched. */
  lemma MigrateStopsAtFirst(keys: seq<string>, s: Settings)
    requires forall a, b :: 0 <= a < b < |keys| ==> keys[a] != keys[b]
    ensures var j := FirstStop(keys, s);
      && (MigrateFrom(keys, s).Err? <==> j < |keys| && keys[j] !in s)
      && (MigrateFrom(keys, s).Err? ==> MigrateFrom(keys, s).error == "KeyError")
      && (MigrateFrom(keys, s).Ok? ==>
        var m := MigrateFrom(keys, s).value;
        && (forall k :: k in m <==> k in s)
        && (forall k :: k in s ==> m[k] == if k in keys[..j] && k != "skip_update" then Enabled(s[k]) else s[k]))
  {
    MigrateStopsAt(keys, s, FirstStop(keys, s));
  }

  /** The migration loop of `process_prefs`. */
  method Migrate(legacy: Settings) returns (r: Result<Settings>)
    ensures r == MigrateFrom(InitialKeys, legacy)
  {
    var settings := legacy;
    var i := 0;
    r := Ok(settings);
    while i < |InitialKeys|
      invariant 0 <= i <= |InitialKeys|
      invariant MigrateFrom(InitialKeys[i..], settings) == MigrateFrom(InitialKeys, legacy)
    {
      var key := InitialKeys[i];
      assert InitialKeys[i..][1..] == InitialKeys[i + 1..];
      if key == "skip_update" {
        i := i + 1;
        continue;
      }
      if key !in settings {
        assert MigrateFrom(InitialKeys[i..], settings) == Err("KeyError");
        r := Err("KeyError");
        return;
      }
      var value := settings[key];
      if !value.VTuple? {
        settings := settings[key := Enabled(value)];
      } else {
        assert MigrateFrom(InitialKeys[i..], settings) == Ok(settings);
        break;
      }
      i := i + 1;
    }
    r := Ok(settings);
  }

  // ---------------------------------------------------------------------------------------
  // Partial override from the settings window

  /** The arguments of `process_prefs` that override settings; a falsy one overrides nothing. */
  datatype Overrides = Overrides(cam: Val, near: Val, far: Val, overscan: Val, maskOp: Val, maskColor: Val, skipUpdate: Val)

  const NoOverrides := Overrides(VBool(false), VBool(false), VBool(false), VBool(false), VBool(false), VBool(false), VBool(false))

  /** The seven overrides, one after the other, each written only when truthy. */
  function ApplyOverrides(s: Settings, o: Overrides): Settings
  {
    var s1 := if Truthy(o.cam) then s["camera" := o.cam] else s;
    var s2 := if Truthy(o.near) then s1["near_clip" := o.near] else s1;
    var s3 := if Truthy(o.far) then s2["far_clip" := o.far] else s2;
    var s4 := if Truthy(o.overscan) then s3["overscan" := o.overscan] else s3;
    var s5 := if Truthy(o.maskOp) then s4["mask_opacity" := o.maskOp] else s4;
    var s6 := if Truthy(o.maskColor) then s5["mask_color" := o.maskColor] else s5;
    if Truthy(o.skipUpdate) then s6["skip_update" := o.skipUpdate] else s6
  }

  /** The override a key receives, by key name: the argument for it when that is truthy. */
  function OverrideFor(o: Overrides, k: string): Option<Val>
  {
    var v :=
      if k == "camera" then o.cam
      else if k == "near_clip" then o.near
      else if k == "far_clip" then o.far
      else if k == "overscan" then o.overscan
      else if k == "mask_opacity" then o.maskOp
      else if k == "mask_color" then o.maskColor
      else if k == "skip_update" then o.skipUpdate
      else VNone;
    if Truthy(v) then Some(v) else None
  }

  /** Each key takes its truthy override and every other key keeps its value; no key is removed. */
  lemma ApplyOverridesSpec(s: Settings, o: Overrides)
    ensures forall k :: k in ApplyOverrides(s, o) <==> k in s || OverrideFor(o, k).Some?
    ensures forall k :: k in ApplyOverrides(s, o) ==>
      ApplyOverrides(s, o)[k] == if OverrideFor(o, k).Some? then OverrideFor(o, k).value else s[k]
  {
    var r := ApplyOverrides(s, o);
    forall k
      ensures k in r <==> k in s || OverrideFor(o, k).Some?
      ensures k in r ==> r[k] == if OverrideFor(o, k).Some? then OverrideFor(o, k).value else s[k]
    {
      if k == "camera" {
      } else if k == "near_clip" {
      } else if k == "far_clip" {
      } else if k == "overscan" {
      } else if k == "mask_opacity" {
      } else if k == "mask_color" {
      } else if k == "skip_update" {
      } else {
        assert OverrideFor(o, k).None?;
      }
    }
  }

  /** Overriding with nothing changes nothing, and overriding twice with the same arguments is
      overriding once. */
  lemma ApplyOverridesIdempotent(s: Settings, o: Overrides)
    ensures ApplyOverrides(s, NoOverrides) == s
    ensures ApplyOverrides(ApplyOverrides(s, o), o) == ApplyOverrides(s, o)
  {
    ApplyOverridesSpec(s, o);
    ApplyOverridesSpec(ApplyOverrides(s, o), o);
  }

  // ---------------------------------------------------------------------------------------
  // The preferences

  /** What the preferences file holds: the HUD presets and the default settings, each empty when
      missing. */
  datatype Stored = Stored(hud: map<string, Hud.Slots>, settings: Settings)

  /** The settings the code starts from in `process_prefs`: the current ones, or those migrated
      from a legacy node (the initial ones when the migration leaves an empty dictionary). */
  function Base(current: Settings, legacy: Option<Settings>): Result<Settings>
  {
    if legacy.None? then Ok(current)
    else
      var m := MigrateFrom(InitialKeys, legacy.value);
      if m.Err? then m else Ok(if m.value == map[] then InitialSettings else m.value)
  }

  class Prefs {
    /** `user_prefs["hud"]`, empty when missing. */
    var hud: map<string, Hud.Slots>
    /** `cams_prefs`, the same dictionary as `user_prefs["default_settings"]`; empty when missing. */
    var settings: Settings
    /** `initial_settings`, which does not exist until `process_prefs` first runs. */
    var initial: Option<Settings>
    /** The preferences file, when it exists. */
    var file: Option<Stored>

    constructor (file: Option<Stored>)
      ensures this.file == file && hud == map[] && settings == map[] && initial.None?
    {
      this.file := file;
      hud := map[];
      settings := map[];
      initial := None;
    }

    /** `save_prefs`: falsy settings mean the initial ones (raising when those do not exist yet);
        the default HUD preset table is added only when there is none; the settings become the
        current ones and everything is written. */
    method SavePrefs(camPrefs: Settings) returns (ok: bool)
      modifies this
      ensures ok <==> camPrefs != map[] || old(initial).Some?
      ensures initial == old(initial)
      ensures !ok ==> hud == old(hud) && settings == old(settings) && file == old(file)
      ensures ok ==> settings == if camPrefs != map[] then camPrefs else initial.value
      ensures ok ==> hud == if old(hud) == map[] then map["Default" := DefaultHud] else old(hud)
      ensures ok ==> file == Some(Stored(hud, settings))
    {
      var chosen := camPrefs;
      if chosen == map[] {
        if initial.None? {
          return false;
        }
        chosen := initial.value;
      }
      if hud == map[] {
        hud := map["Default" := DefaultHud];
      }
      settings := chosen;
      file := Some(Stored(hud, settings));
      ok := true;
    }

    /** `get_prefs`: read the file when it exists; when it does not, or holds no settings, save
        the initial ones. */
    method GetPrefs() returns (ok: bool)
      modifies this
      ensures initial == old(initial)
      ensures old(file).Some? && old(file).value.settings != map[] ==>
        ok && hud == old(file).value.hud && settings == old(file).value.settings && file == old(file)
      ensures !(old(file).Some? && old(file).value.settings != map[]) ==>
        && (ok <==> initial.Some?)
        && (ok ==> settings == initial.value && file == Some(Stored(hud, settings)))
        && (ok ==> hud == if old(file).Some? && old(file).value.hud != map[] then old(file).value.hud
                          else map["Default" := DefaultHud])
      ensures !ok ==> file == old(file)
    {
      if file.Some? {
        hud := file.value.hud;
        settings := file.value.settings;
        if settings == map[] {
          ok := SavePrefs(map[]);
        } else {
          ok := true;
        }
      } else {
        hud := map[];
        ok := SavePrefs(map[]);
      }
    }

    /** `process_prefs`: define the initial settings, migrate a legacy node's dictionary if there
        is one, apply the truthy overrides, read the eight settings (a missing one raises), and
        save the result, or the initial settings on a reset. Returns the eight values read. */
    method ProcessPrefs(o: Overrides, legacy: Option<Settings>, reset: bool, save: bool) returns (r: Result<seq<Val>>)
      modifies this
      ensures initial == Some(InitialSettings)
      ensures old(hud) != map[] ==> hud == old(hud)
      ensures Base(old(settings), legacy).Err? ==> r == Err("KeyError") && settings == old(settings)
      ensures Base(old(settings), legacy).Ok? ==>
        var applied := ApplyOverrides(Base(old(settings), legacy).value, o);
        && (r.Ok? <==> forall k :: k in InitialKeys ==> k in applied)
        && (r.Ok? ==> |r.value| == 8 && forall i :: 0 <= i < 8 ==> r.value[i] == applied[InitialKeys[i]])
        && (r.Ok? && save ==> settings == (if reset then InitialSettings else applied) && file == Some(Stored(hud, settings)))
        && (!(r.Ok? && save) ==> settings == applied)
      ensures !save && legacy.None? ==> file == old(file) && hud == old(hud)
      ensures r.Ok? && save ==> hud == if old(hud) == map[] then map["Default" := DefaultHud] else old(hud)
    {
      initial := Some(InitialSettings);
      InitialKeysComplete();
      if legacy.Some? {
        var m := Migrate(legacy.value);
        if m.Err? {
          return Err("KeyError");
        }
        var _ := SavePrefs(m.value);
      }
      settings := ApplyOverrides(settings, o);
      if exists k :: k in InitialKeys && k !in settings {
        return Err("KeyError");
      }
      var current := settings;
      r := Ok(seq(8, i requires 0 <= i < 8 => current[InitialKeys[i]]));
      if save {
        if !reset {
          var _ := SavePrefs(settings);
        } else {
          var _ := SavePrefs(map[]);
        }
      }
    }

    /** The start-up of the tool as written: `get_prefs`, then `process_prefs`. When the file
        does not exist, `get_prefs` asks for the initial settings before `process_prefs` has
        defined them, and the start-up raises. */
    method StartupAsWritten(legacy: Option<Settings>) returns (r: Result<seq<Val>>)
      modifies this
      ensures old(initial).None? && (old(file).None? || old(file).value.settings == map[]) ==>
        r == Err("AttributeError") && file == old(file)
      ensures old(file).Some? && old(file).value.settings != map[] && Base(old(file).value.settings, legacy).Ok? ==>
        settings == Base(old(file).value.settings, legacy).value
    {
      var ok := GetPrefs();
      if !ok {
        return Err("AttributeError");
      }
      r := ProcessPrefs(NoOverrides, legacy, false, true);
      if old(file).Some? {
        ApplyOverridesIdempotent(old(file).value.settings, NoOverrides);
      }
    }

    /** The start-up with the initial settings defined first: a missing or empty file is
        replaced by the initial settings and the default HUD preset, and start-up succeeds. */
    method Startup(legacy: Option<Settings>) returns (r: Result<seq<Val>>)
      modifies this
      ensures old(file).None? && legacy.None? ==>
        && r.Ok? && settings == InitialSettings && hud == map["Default" := DefaultHud]
        && file == Some(Stored(hud, settings))
        && r.value == [InitialSettings["camera"], InitialSettings["overscan"], InitialSettings["near_clip"],
                       InitialSettings["far_clip"], InitialSettings["display_resolution"],
                       InitialSettings["mask_opacity"], InitialSettings["mask_color"], InitialSettings["skip_update"]]
      ensures initial == Some(InitialSettings)
    {
      initial := Some(InitialSettings);
      var noFile := file.None?;
      var ok := GetPrefs();
      if noFile && legacy.None? {
        assert ok && settings == InitialSettings && hud == map["Default" := DefaultHud] && "Default" in hud;
        InitialKeysComplete();
        ApplyOverridesIdempotent(InitialSettings, NoOverrides);
        assert Base(settings, legacy) == Ok(InitialSettings);
        r := ProcessPrefs(NoOverrides, legacy, false, true);
        assert r.Ok? && settings == InitialSettings;
        InitialValues(r.value);
      } else {
        r := ProcessPrefs(NoOverrides, legacy, false, true);
      }
    }
  }

  /** The eight values read from the initial settings, in the order `process_prefs` reads them. */
  lemma InitialValues(v: seq<Val>)
    requires |v| == 8 && forall i :: 0 <= i < 8 ==> InitialKeys[i] in InitialSettings && v[i] == InitialSettings[InitialKeys[i]]
    ensures v == [InitialSettings["camera"], InitialSettings["overscan"], InitialSettings["near_clip"],
                  InitialSettings["far_clip"], InitialSettings["display_resolution"],
                  InitialSettings["mask_opacity"], InitialSettings["mask_color"], InitialSettings["skip_update"]]
  {
  }

  /** The first launch, with no preferences file and no legacy node, fails as written. */
  method FirstLaunchAsWritten() returns (r: Result<seq<Val>>)
    ensures r == Err("AttributeError")
  {
    var prefs := new Prefs(None);
    r := prefs.StartupAsWritten(None);
  }

  /** With the initial settings defined first, the first launch succeeds and stores them. */
  method FirstLaunch() returns (r: Result<seq<Val>>, stored: Option<Stored>)
    ensures r.Ok? && stored == Some(Stored(map["Default" := DefaultHud], InitialSettings))
  {
    var prefs := new Prefs(None);
    r := prefs.Startup(None);
    stored := prefs.file;
  }
}

=== FILE: hud.dfy ===
/** The six-slot heads-up-display preset shared by the Cams panel and its HUD editor,
    and the table that turns a preset into heads-up-display commands for the host. */
module Hud {
  import opened Wrappers

  /** One preset: the command name chosen for each of the six screen slots
      (top-left, top-centre, top-right, bottom-left, bottom-centre, bottom-right). */
  datatype Slots = Slots(tlc: string, tmc: string, trc: string, blc: string, bmc: string, brc: string)

  /** A preset whose six slots all show nothing. */
  const AllNone := Slots("None", "None", "None", "None", "None", "None")

  /** The slot keys, in the order the position table lists them. */
  const SlotKeys: seq<string> := ["tlc", "tmc", "trc", "blc", "bmc", "brc"]

  /** The value a preset holds under one of the six keys. */
  function Slot(s: Slots, i: nat): string
    requires i < 6
  {
    match i
    case 0 => s.tlc
    case 1 => s.tmc
    case 2 => s.trc
    case 3 => s.blc
    case 4 => s.bmc
    case _ => s.brc
  }

  /** Where a slot is drawn: the host's name for the position, its section number, and the
      block alignment (the part of the position name after its last underscore). */
  datatype Position = Position(name: string, section: nat, align: string)

  const Positions: seq<Position> := [
    Position("top_left", 0, "left"),
    Position("top_center", 2, "center"),
    Position("top_right", 4, "right"),
    Position("bottom_left", 5, "left"),
    Position("bottom_center", 7, "center"),
    Position("bottom_right", 9, "right")
  ]

  /** The host-side value providers a HUD command can attach. */
  datatype Provider = CurrentFrame | TotalFrames | Framerate | Username | SceneName | FocalLength | Date

  /** What a slot shows: a caption and a provider polled on refresh, or one of the host's built-in presets. */
  datatype Element = Command(caption: string, provider: Provider) | Preset(preset: string)

  /** One heads-up-display command sent to the host. */
  datatype HudOp =
    | RemovePosition(section: nat, block: nat)
    | Show(position: string, section: nat, align: string, element: Element)

  /** Every apply first clears the six sections, at block 0. */
  const Removals: seq<HudOp> := [
    RemovePosition(0, 0), RemovePosition(2, 0), RemovePosition(4, 0),
    RemovePosition(5, 0), RemovePosition(7, 0), RemovePosition(9, 0)
  ]

  /** The show command for slot `i`, if its command name is one `elementOf` recognises;
      the name "None" never shows anything. */
  function SlotOps(s: Slots, i: nat, elementOf: string -> Option<Element>): seq<HudOp>
    requires i < 6
  {
    var cmd := Slot(s, i);
    if cmd == "None" then []
    else match elementOf(cmd)
      case None => []
      case Some(e) => [Show(Positions[i].name, Positions[i].section, Positions[i].align, e)]
  }

  /** The show commands for the six slots, in table order. */
  function ShowOps(s: Slots, elementOf: string -> Option<Element>): seq<HudOp>
  {
    SlotOps(s, 0, elementOf) + SlotOps(s, 1, elementOf) + SlotOps(s, 2, elementOf)
      + SlotOps(s, 3, elementOf) + SlotOps(s, 4, elementOf) + SlotOps(s, 5, elementOf)
  }

  /** All commands applying a preset: the six removals, then one show per recognised slot. */
  function HudOps(s: Slots, elementOf: string -> Option<Element>): (r: seq<HudOp>)
    ensures 6 <= |r| <= 12
    ensures forall op :: op in r[6..] ==> op.Show?
  {
    Removals + ShowOps(s, elementOf)
  }

  /** Slot `i` shows something exactly when its command is not "None" and is recognised. */
  predicate Shown(s: Slots, i: nat, elementOf: string -> Option<Element>)
    requires i < 6
  {
    Slot(s, i) != "None" && elementOf(Slot(s, i)).Some?
  }

  /** The slot a section number belongs to, or -1 for a section no slot uses. */
  function SlotOfSection(section: nat): int
  {
    if section == 0 then 0 else if section == 2 then 1 else if section == 4 then 2
    else if section == 5 then 3 else if section == 7 then 4 else if section == 9 then 5 else -1
  }

  /** The sections a list of commands touches. */
  function Sections(ops: seq<HudOp>): set<nat>
  {
    if ops == [] then {} else {ops[0].section} + Sections(ops[1..])
  }

  lemma {:induction false} SectionsConcat(a: seq<HudOp>, b: seq<HudOp>)
    ensures Sections(a + b) == Sections(a) + Sections(b)
  {
    if a == [] {
      assert a + b == b;
    } else {
      assert (a + b)[1..] == a[1..] + b;
      SectionsConcat(a[1..], b);
    }
  }

  /** Slot `i` contributes at most one command, at its own section, carrying its element. */
  lemma SlotOpsAt(s: Slots, i: nat, elementOf: string -> Option<Element>)
    requires i < 6
    ensures forall op :: op in SlotOps(s, i, elementOf) ==>
      op.Show? && SlotOfSection(op.section) == i && op.element == elementOf(Slot(s, i)).value
    ensures Sections(SlotOps(s, i, elementOf)) == if Shown(s, i, elementOf) then {Positions[i].section} else {}
  {
  }

  /** The sections the show commands touch are exactly those of the shown slots. */
  lemma ShowOpsSections(s: Slots, elementOf: string -> Option<Element>)
    ensures Sections(ShowOps(s, elementOf)) ==
      (if Shown(s, 0, elementOf) then {0} else {}) + (if Shown(s, 1, elementOf) then {2} else {})
      + (if Shown(s, 2, elementOf) then {4} else {}) + (if Shown(s, 3, elementOf) then {5} else {})
      + (if Shown(s, 4, elementOf) then {7} else {}) + (if Shown(s, 5, elementOf) then {9} else {})
  {
    var o0, o1, o2 := SlotOps(s, 0, elementOf), SlotOps(s, 1, elementOf), SlotOps(s, 2, elementOf);
    var o3, o4, o5 := SlotOps(s, 3, elementOf), SlotOps(s, 4, elementOf), SlotOps(s, 5, elementOf);
    SlotOpsAt(s, 0, elementOf); SlotOpsAt(s, 1, elementOf); SlotOpsAt(s, 2, elementOf);
    SlotOpsAt(s, 3, elementOf); SlotOpsAt(s, 4, elementOf); SlotOpsAt(s, 5, elementOf);
    SectionsConcat(o0, o1);
    SectionsConcat(o0 + o1, o2);
    SectionsConcat(o0 + o1 + o2, o3);
    SectionsConcat(o0 + o1 + o2 + o3, o4);
    SectionsConcat(o0 + o1 + o2 + o3 + o4, o5);
  }

  /** Applying a preset first clears the six sections. */
  lemma HudOpsClearFirst(s: Slots, elementOf: string -> Option<Element>)
    ensures HudOps(s, elementOf)[..6] == Removals
    ensures HudOps(s, elementOf)[6..] == ShowOps(s, elementOf)
  {
  }

  /** A slot's section receives a show command exactly when the slot's command is neither "None"
      nor unknown. */
  lemma HudOpsShowsExactlyShownSlots(s: Slots, elementOf: string -> Option<Element>)
    ensures forall j :: 0 <= j < 6 ==>
      (Shown(s, j, elementOf) <==> Positions[j].section in Sections(ShowOps(s, elementOf)))
  {
    ShowOpsSections(s, elementOf);
  }

  /** Each show command sits at the section of a shown slot and carries that slot's element. */
  lemma ShowOpsBelongToSlots(s: Slots, elementOf: string -> Option<Element>)
    ensures forall op :: op in ShowOps(s, elementOf) ==>
      && op.Show?
      && 0 <= SlotOfSection(op.section) < 6
      && Shown(s, SlotOfSection(op.section), elementOf)
      && op.element == elementOf(Slot(s, SlotOfSection(op.section))).value
  {
    SlotOpsAt(s, 0, elementOf); SlotOpsAt(s, 1, elementOf); SlotOpsAt(s, 2, elementOf);
    SlotOpsAt(s, 3, elementOf); SlotOpsAt(s, 4, elementOf); SlotOpsAt(s, 5, elementOf);
  }
}

=== FILE: hud_window.dfy ===
/** The HUD preset editor (aleha_tools/cams_tools/HUDWindow.py): a table of named six-slot
    presets, edited through a title field and six drop-downs, with new, duplicate, rename-on-save
    and delete, and applied to the heads-up display. */
module HudEditor {
  import opened Wrappers
  import Text
  import Hud

  /** The names the editor's drop-downs offer. */
  const EditorItems: seq<string> := ["None", "Scene Name", "Current Frame", "Total Frames", "Framerate", "Username", "Date"]

  /** The text a drop-down shows after being asked to show `value` (an empty value means "None"):
      a value it does not offer leaves it showing what it showed before. */
  function ShowValue(shown: string, value: string): string
  {
    var v := if value == "" then "None" else value;
    if v in EditorItems then v else shown
  }

  /** The six drop-downs after loading a preset into them. */
  function Load(shown: Hud.Slots, preset: Hud.Slots): (r: Hud.Slots)
    ensures forall i :: 0 <= i < 6 ==> Hud.Slot(r, i) in EditorItems || Hud.Slot(r, i) == Hud.Slot(shown, i)
  {
    Hud.Slots(ShowValue(shown.tlc, preset.tlc), ShowValue(shown.tmc, preset.tmc), ShowValue(shown.trc, preset.trc),
              ShowValue(shown.blc, preset.blc), ShowValue(shown.bmc, preset.bmc), ShowValue(shown.brc, preset.brc))
  }

  /** Every slot names something the drop-downs offer. */
  predicate Offered(p: Hud.Slots)
  {
    forall i :: 0 <= i < 6 ==> Hud.Slot(p, i) in EditorItems
  }

  /** Loading a preset whose slots the drop-downs all offer shows exactly that preset; a slot they
      do not offer keeps the drop-down's previous text. */
  lemma LoadShows(shown: Hud.Slots, preset: Hud.Slots)
    ensures Offered(preset) ==> Load(shown, preset) == preset
    ensures forall i :: 0 <= i < 6 && Hud.Slot(preset, i) != "" && Hud.Slot(preset, i) !in EditorItems ==>
      Hud.Slot(Load(shown, preset), i) == Hud.Slot(shown, i)
    ensures Offered(Load(shown, preset)) <== Offered(shown)
  {
    if Offered(preset) {
      assert Hud.Slot(preset, 0) in EditorItems && Hud.Slot(preset, 1) in EditorItems && Hud.Slot(preset, 2) in EditorItems;
      assert Hud.Slot(preset, 3) in EditorItems && Hud.Slot(preset, 4) in EditorItems && Hud.Slot(preset, 5) in EditorItems;
      assert "" !in EditorItems;
    }
    if Offered(shown) {
      assert Hud.Slot(shown, 0) in EditorItems && Hud.Slot(shown, 1) in EditorItems && Hud.Slot(shown, 2) in EditorItems;
      assert Hud.Slot(shown, 3) in EditorItems && Hud.Slot(shown, 4) in EditorItems && Hud.Slot(shown, 5) in EditorItems;
    }
  }

  /** `"%s %s" % (name, r) if r else name`. */
  function Candidate(base: string, r: nat): string
  {
    if r == 0 then base else base + " " + Text.NatToString(r)
  }

  /** `get_new_name`: the first candidate from `r` on that is not taken, or the candidate for 29
      when every one up to it is. */
  function FirstFree(taken: map<string, Hud.Slots>, base: string, r: nat): string
    requires r < 30
    decreases 30 - r
  {
    if r == 29 || Candidate(base, r) !in taken then Candidate(base, r) else FirstFree(taken, base, r + 1)
  }

  function NewName(taken: map<string, Hud.Slots>, base: string): string
  {
    FirstFree(taken, base, 0)
  }

  /** The search returns a candidate, the first untaken one when there is one, and a taken name
      only when every candidate up to 29 is taken. */
  lemma {:induction false} FirstFreeSpec(taken: map<string, Hud.Slots>, base: string, r: nat) returns (q: nat)
    requires r < 30
    ensures r <= q < 30 && FirstFree(taken, base, r) == Candidate(base, q)
    ensures forall p :: r <= p < q ==> Candidate(base, p) in taken
    ensures Candidate(base, q) in taken ==> q == 29
    decreases 30 - r
  {
    if r == 29 || Candidate(base, r) !in taken {
      q := r;
    } else {
      q := FirstFreeSpec(taken, base, r + 1);
    }
  }

  /** The new name is the base itself when that is free; otherwise the first free "base r" for
      r from 1 to 29; it is taken only when all thirty candidates are, and is then "base 29". */
  lemma NewNameSpec(taken: map<string, Hud.Slots>, base: string)
    ensures base !in taken ==> NewName(taken, base) == base
    ensures base in taken ==> NewName(taken, base) != base
    ensures exists q :: (0 <= q < 30 && NewName(taken, base) == Candidate(base, q)
      && forall p :: 0 <= p < q ==> Candidate(base, p) in taken)
    ensures NewName(taken, base) in taken ==>
      NewName(taken, base) == Candidate(base, 29) && forall p :: 0 <= p < 30 ==> Candidate(base, p) in taken
  {
    var q := FirstFreeSpec(taken, base, 0);
    var name := NewName(taken, base);
    assert name == Candidate(base, q);
    if q != 0 {
      assert |Candidate(base, q)| > |base|;
    }
    assert 0 <= q < 30 && name == Candidate(base, q) && forall p :: 0 <= p < q ==> Candidate(base, p) in taken;
    if name in taken {
      assert q == 29;
    }
  }

  /** The editor's HUD elements: no focal length, camera name or view axis, and the frame rate
      captioned "Framerate:". */
  function EditorElement(cmd: string): (r: Option<Hud.Element>)
    ensures r.Some? <==> cmd in EditorItems && cmd != "None"
  {
    if cmd == "Current Frame" then Some(Hud.Command("Frame:", Hud.CurrentFrame))
    else if cmd == "Total Frames" then Some(Hud.Command("Total:", Hud.TotalFrames))
    else if cmd == "Framerate" then Some(Hud.Command("Framerate:", Hud.Framerate))
    else if cmd == "Username" then Some(Hud.Command("User:", Hud.Username))
    else if cmd == "Scene Name" then Some(Hud.Command("", Hud.SceneName))
    else if cmd == "Date" then Some(Hud.Command("", Hud.Date))
    else None
  }

  /** The names only the Cams tool knows show nothing here. */
  lemma EditorElementKnowsItsItems()
    ensures EditorElement("Camera Name").None? && EditorElement("View Axis").None? && EditorElement("Focal Length").None?
  {
  }

  /** Applying a preset with only names the editor does not know clears the six sections and
      shows nothing, as for the default preset the Cams tool stores. */
  lemma ApplyUnknownShowsNothing(p: Hud.Slots)
    requires forall i :: 0 <= i < 6 ==> EditorElement(Hud.Slot(p, i)).None?
    ensures Hud.HudOps(p, EditorElement) == Hud.Removals
  {
    assert EditorElement(Hud.Slot(p, 0)).None? && EditorElement(Hud.Slot(p, 1)).None? && EditorElement(Hud.Slot(p, 2)).None?;
    assert EditorElement(Hud.Slot(p, 3)).None? && EditorElement(Hud.Slot(p, 4)).None? && EditorElement(Hud.Slot(p, 5)).None?;
  }

  /** Applying a preset from the editor clears the six sections, then gives a section a show
      command exactly when its slot names one of the drop-down items other than "None". */
  lemma EditorApplyShowsOffered(p: Hud.Slots)
    ensures Hud.HudOps(p, EditorElement)[..6] == Hud.Removals
    ensures forall j :: 0 <= j < 6 ==>
      (Hud.Positions[j].section in Hud.Sections(Hud.HudOps(p, EditorElement)[6..]) <==>
        Hud.Slot(p, j) in EditorItems && Hud.Slot(p, j) != "None")
  {
    Hud.HudOpsClearFirst(p, EditorElement);
    Hud.HudOpsShowsExactlyShownSlots(p, EditorElement);
    EditorElementKnowsItsItems();
    forall j | 0 <= j < 6
      ensures Hud.Shown(p, j, EditorElement) <==> Hud.Slot(p, j) in EditorItems && Hud.Slot(p, j) != "None"
    {
      var c := Hud.Slot(p, j);
      if EditorElement(c).Some? {
        assert c in EditorItems;
      }
    }
  }

  class PresetEditor {
    /** `hud_presets`. */
    var presets: map<string, Hud.Slots>
    /** The text of the title field. */
    var title: string
    /** `displayed_preset`: the preset the drop-downs were last loaded from. */
    var displayed: string
    /** The texts of the six drop-downs. */
    var combos: Hud.Slots
    /** The presets last written to the preferences file. */
    var file: map<string, Hud.Slots>

    /** `get_prefs` and the first `refresh_ui`: the stored presets, or a single all-"None"
        "Default" preset (written to a new file) when there is no file; then the drop-downs show
        some preset and the title names it. */
    constructor Open(stored: Option<map<string, Hud.Slots>>)
      ensures presets == (if stored.Some? then stored.value else map["Default" := Hud.AllNone])
      ensures file == presets
      ensures presets != map[] ==> title in presets && displayed == title && combos == Load(Hud.AllNone, presets[title])
      ensures presets == map[] ==> title == "" && displayed == "" && combos == Hud.AllNone
    {
      presets := if stored.Some? then stored.value else map["Default" := Hud.AllNone];
      file := presets;
      title := "";
      displayed := "";
      combos := Hud.AllNone;
      new;
      var _ := RefreshUi(None, false);
    }

    /** `refresh_ui`: with no presets, nothing is displayed. Otherwise, when the requested preset
        is not the titled one, the drop-downs load the requested preset (on a menu change) or
        some preset (otherwise); the title and the displayed preset become that name. */
    method RefreshUi(preset: Option<string>, change: bool) returns (ok: bool)
      modifies this`title, this`displayed, this`combos
      ensures presets == map[] ==> ok && displayed == "" && title == old(title) && combos == old(combos)
      ensures presets != map[] && preset == Some(old(title)) ==>
        ok && title == old(title) && displayed == title && combos == old(combos)
      ensures presets != map[] && preset != Some(old(title)) && change && preset.Some? ==>
        && (ok <==> preset.value in presets)
        && (ok ==> title == preset.value && displayed == title && combos == Load(old(combos), presets[title]))
        && (!ok ==> title == old(title) && displayed == old(displayed) && combos == old(combos))
      ensures presets != map[] && preset != Some(old(title)) && !(change && preset.Some?) ==>
        ok && title in presets && displayed == title && combos == Load(old(combos), presets[title])
    {
      if presets == map[] {
        displayed := "";
        return true;
      }
      var p: string;
      if preset != Some(title) {
        if change && preset.Some? {
          p := preset.value;
          if p !in presets {
            return false;
          }
        } else {
          p :| p in presets;
        }
        combos := Load(combos, presets[p]);
      } else {
        p := title;
      }
      title := p;
      displayed := p;
      ok := true;
    }

    /** `save_prefs`: a title that differs from the displayed preset renames it (the preset moves
        to the new key, replacing any preset already there); then the drop-downs are written into
        the titled preset. A missing key clears the title instead. The table is written either way. */
    method SavePrefs()
      modifies this`presets, this`title, this`displayed, this`file
      ensures old(title) != old(displayed) && old(displayed) !in old(presets) ==>
        presets == old(presets) && title == "" && displayed == old(displayed)
      ensures old(title) != old(displayed) && old(displayed) in old(presets) ==>
        presets == (old(presets) - {old(displayed)})[old(title) := combos] && title == old(title) && displayed == title
      ensures old(title) == old(displayed) && old(title) !in old(presets) ==>
        presets == old(presets) && title == "" && displayed == old(displayed)
      ensures old(title) == old(displayed) && old(title) in old(presets) ==>
        presets == old(presets)[old(title) := combos] && title == old(title) && displayed == old(displayed)
      ensures file == presets
    {
      var current := title;
      var failed := false;
      if current != displayed {
        if displayed !in presets {
          failed := true;
        } else {
          var moved := presets[displayed];
          presets := (presets - {displayed})[current := moved];
          displayed := current;
        }
      }
      if !failed {
        if current !in presets {
          failed := true;
        } else {
          presets := presets[current := combos];
        }
      }
      if failed {
        title := "";
      }
      file := presets;
    }

    /** `get_new_name`: the search over "base", "base 1", ..., "base 29". */
    method FreshName(base: string) returns (name: string)
      ensures name == NewName(presets, base)
    {
      var r := 0;
      name := Candidate(base, 0);
      while r < 30
        invariant 0 <= r <= 30
        invariant r < 30 ==> FirstFree(presets, base, r) == NewName(presets, base)
        invariant r == 30 ==> name == NewName(presets, base)
        decreases 30 - r
      {
        name := Candidate(base, r);
        if name !in presets {
          break;
        }
        if r == 29 {
          r := 30;
        } else {
          r := r + 1;
        }
      }
    }

    /** `new_preset`: store an all-"None" preset, or a copy of the titled one, under a fresh name,
        show it and save. Duplicating a title that names no preset raises before any change. */
    method NewPreset(duplicate: bool) returns (ok: bool, name: string)
      modifies this
      ensures duplicate ==> name == NewName(old(presets), old(title))
      ensures !duplicate ==> name == NewName(old(presets), "New Preset")
      ensures ok <==> !duplicate || old(title) in old(presets)
      ensures !ok ==>
        presets == old(presets) && title == old(title) && displayed == old(displayed) && combos == old(combos)
        && file == old(file)
      ensures duplicate && ok ==> name != old(title)
      ensures ok ==>
        var copied := if duplicate then old(presets)[old(title)] else Hud.AllNone;
        && title == name && displayed == name
        && combos == (if name == old(title) then old(combos) else Load(old(combos), copied))
        && presets == old(presets)[name := combos]
        && file == presets
    {
      var source := Hud.AllNone;
      if duplicate {
        var current := title;
        name := FreshName(current);
        if current !in presets {
          return false, name;
        }
        NewNameSpec(presets, current);
        source := presets[current];
      } else {
        name := FreshName("New Preset");
      }
      presets := presets[name := source];
      assert name in presets;
      var loaded := RefreshUi(Some(name), true);
      SavePrefs();
      ok := true;
    }

    /** `delete_preset`: once confirmed, remove the titled preset, show some remaining one (or
        none), and save. A title that names no preset raises before any change. */
    method Delete(confirmed: bool) returns (ok: bool)
      modifies this
      ensures !confirmed || old(title) !in old(presets) ==>
        presets == old(presets) && title == old(title) && displayed == old(displayed) && combos == old(combos)
        && file == old(file)
      ensures ok <==> confirmed && old(title) in old(presets)
      ensures ok ==> presets.Keys == old(presets).Keys - {old(title)}
      ensures ok ==> forall k :: k in presets && k != title ==> presets[k] == old(presets)[k]
      ensures ok && presets != map[] ==>
        title in presets && displayed == title && presets[title] == combos
        && combos == Load(old(combos), old(presets)[title])
      ensures ok && presets == map[] ==> title == "" && displayed == "" && combos == old(combos)
      ensures ok ==> file == presets
    {
      if !confirmed || title !in presets {
        return false;
      }
      presets := presets - {title};
      var loaded := RefreshUi(None, false);
      SavePrefs();
      ok := true;
    }

    /** `apply_selection`: save, clear the six HUD sections, then send the show commands for the
        titled preset; a title that no longer names a preset after saving raises after the
        sections are cleared. Unless the window is closing, the editor is then refreshed with that
        preset. Returns the HUD commands sent and the error raised, if any. */
    method Apply(close: bool) returns (sent: seq<Hud.HudOp>, err: Option<string>)
      modifies this
      ensures var selected := old(title);
        && (selected in presets ==> sent == Hud.HudOps(presets[selected], EditorElement) && err.None?)
        && (selected !in presets ==> sent == Hud.Removals && err == Some("KeyError"))
      ensures old(title) == old(displayed) && old(title) in old(presets) ==>
        && presets == old(presets)[old(title) := old(combos)]
        && sent == Hud.HudOps(old(combos), EditorElement) && err.None?
        && title == old(title) && displayed == title && combos == old(combos)
      ensures old(title) != old(displayed) && old(displayed) in old(presets) ==>
        && presets == (old(presets) - {old(displayed)})[old(title) := old(combos)]
        && sent == Hud.HudOps(old(combos), EditorElement) && err.None?
        && title == old(title) && displayed == title && combos == old(combos)
      ensures old(title) != old(displayed) && old(displayed) !in old(presets) ==> presets == old(presets)
      ensures old(title) == old(displayed) && old(title) !in old(presets) ==>
        presets == old(presets) && sent == Hud.Removals && err == Some("KeyError") && title == ""
      ensures file == presets
    {
      var selected := title;
      SavePrefs();
      sent := Hud.Removals;
      if selected !in presets {
        return sent, Some("KeyError");
      }
      sent := sent + Hud.ShowOps(presets[selected], EditorElement);
      err := None;
      if !close {
        var _ := RefreshUi(Some(selected), false);
      }
    }
  }

  /** Opening without a file, adding a preset and deleting it again leaves the single "Default"
      preset, displayed. */
  method NewThenDelete() returns (editor: PresetEditor)
    ensures editor.presets == map["Default" := Hud.AllNone] && editor.title == "Default"
  {
    editor := new PresetEditor.Open(None);
    assert editor.presets.Keys == {"Default"};
    var ok, name := editor.NewPreset(false);
    NewNameSpec(map["Default" := Hud.AllNone], "New Preset");
    assert name == "New Preset";
    LoadShows(Hud.AllNone, Hud.AllNone);
    assert editor.presets == map["Default" := Hud.AllNone, "New Preset" := Hud.AllNone];
    var deleted := editor.Delete(true);
    assert editor.presets.Keys == {"Default"};
  }

  /** Opening without a file, typing a new title and saving renames "Default": the old key is
      gone and the new one holds the drop-downs. */
  method RenameDefault(newTitle: string) returns (editor: PresetEditor)
    requires newTitle != "Default"
    ensures editor.presets == map[newTitle := Hud.AllNone]
    ensures editor.title == newTitle && editor.displayed == newTitle
  {
    editor := new PresetEditor.Open(None);
    assert editor.presets.Keys == {"Default"};
    editor.title := newTitle;
    editor.SavePrefs();
    assert editor.presets.Keys == {newTitle};
  }
}

=== FILE: scene.dfy ===
/** The host application as the space-switch tools see it: a current time, every object's
    world matrix at every time, the values written to enumerated attributes, which attribute
    plugs refuse writes, the keyframe query, and the session state the bake touches (viewport
    refresh, undo chunks, the tool's event jobs, the main progress bar). */
module Scene {

  /** A world-space transform matrix, opaque to the model: only equality is used. */
  type Mat(0)

  /** A scene node, by name. */
  type Obj = string

  /** One attribute of one node, `node.attr`. */
  datatype Plug = Plug(node: Obj, attr: string)

  /** Which of the two progress-bar phases a status update belongs to. */
  datatype Phase = Saving | Applying

  /** The calls made on the host's main progress bar. */
  datatype ProgressEvent = Begin(max: int) | Step(phase: Phase, value: int, max: int) | End

  class Host {
    /** The current time. */
    var time: int
    /** The world matrix of every object at every time. */
    var world: (Obj, int) -> Mat
    /** The values written to enumerated attributes, per plug and time. */
    var enumAt: map<(Plug, int), int>
    /** The plugs whose writes the host rejects (locked or missing attributes). */
    var locked: set<Plug>
    /** The keyframe query: an object's key times, duplicates allowed; absent when the query raises. */
    var keys: map<Obj, seq<int>>
    /** Viewport refresh suspended. */
    var refreshSuspended: bool
    /** Undo chunks opened and not yet closed. */
    var openChunks: nat
    /** The tool's selection/time/scene event jobs are installed. */
    var listening: bool
    /** The calls made on the main progress bar, oldest first. */
    var progress: seq<ProgressEvent>

    constructor (world: (Obj, int) -> Mat, locked: set<Plug>, keys: map<Obj, seq<int>>, time: int)
      ensures this.world == world && this.locked == locked && this.keys == keys && this.time == time
      ensures enumAt == map[] && !refreshSuspended && openChunks == 0 && listening && progress == []
    {
      this.world := world;
      this.locked := locked;
      this.keys := keys;
      this.time := time;
      enumAt := map[];
      refreshSuspended := false;
      openChunks := 0;
      listening := true;
      progress := [];
    }

    /** `cmds.currentTime(t)`. */
    method SetTime(t: int)
      modifies this`time
      ensures time == t
    {
      time := t;
    }

    /** `cmds.xform(o, q=True, ws=True, matrix=True)`. */
    method QueryWorld(o: Obj) returns (m: Mat)
      ensures m == world(o, time)
    {
      m := world(o, time);
    }

    /** `cmds.xform(o, ws=True, matrix=m)`: sets `o`'s world matrix at the current time. */
    method WriteWorld(o: Obj, m: Mat)
      modifies this`world
      ensures world(o, time) == m
      ensures forall p, t :: (p != o || t != time) ==> world(p, t) == old(world)(p, t)
    {
      var w, now := world, time;
      world := (p: Obj, t: int) => if p == o && t == now then m else w(p, t);
    }

    /** `cmds.setAttr(plug, v)`. A rejected write raises (`ok` false) and changes nothing.
        An accepted one records `v` at the current time and, since it may re-parent anything,
        leaves every object's world matrix at the current time unknown; other times keep theirs. */
    method SetEnum(plug: Plug, v: int) returns (ok: bool)
      modifies this`world, this`enumAt
      ensures ok <==> plug !in locked
      ensures ok ==> enumAt == old(enumAt)[(plug, time) := v]
      ensures !ok ==> enumAt == old(enumAt) && world == old(world)
      ensures forall p, t :: t != time ==> world(p, t) == old(world)(p, t)
    {
      ok := plug !in locked;
      if ok {
        enumAt := enumAt[(plug, time) := v];
        var after: Obj -> Mat := *;
        var w, now := world, time;
        world := (p: Obj, t: int) => if t == now then after(p) else w(p, t);
      }
    }

    /** `cmds.undoInfo(openChunk=True)`. */
    method OpenChunk()
      modifies this`openChunks
      ensures openChunks == old(openChunks) + 1
    {
      openChunks := openChunks + 1;
    }

    /** `cmds.undoInfo(closeChunk=True)`. */
    method CloseChunk()
      requires openChunks > 0
      modifies this`openChunks
      ensures openChunks == old(openChunks) - 1
    {
      openChunks := openChunks - 1;
    }

    /** `cmds.refresh(suspend=b)`. */
    method SuspendRefresh(b: bool)
      modifies this`refreshSuspended
      ensures refreshSuspended == b
    {
      refreshSuspended := b;
    }

    /** `remove_scriptJobs` / `add_scriptJobs` of the tool. */
    method SetListening(b: bool)
      modifies this`listening
      ensures listening == b
    {
      listening := b;
    }

    /** One call on the main progress bar. */
    method Report(e: ProgressEvent)
      modifies this`progress
      ensures progress == old(progress) + [e]
    {
      progress := progress + [e];
    }
  }
}

=== FILE: spaceswitch.dfy ===
/** The space-switch tool (aleha_tools/spaceswitch.py): switch the enumerated "space" attribute
    of the first selected object while holding a target's world pose, at the current frame or
    baked over every keyframe in two passes; plus the pure decisions around it (which object is
    the target, which frames are baked, which attributes are offered, what the panel shows). */
module SpaceSwitch {
  import opened Wrappers
  import opened Scene
  import Text

  // ---------------------------------------------------------------------------------------
  // Keyframe sets

  predicate StrictlyIncreasing(s: seq<int>)
  {
    forall i, j :: 0 <= i < j < |s| ==> s[i] < s[j]
  }

  /** A value below every element of an ascending sequence can go in front of it. */
  lemma ConsIncreasing(x: int, s: seq<int>)
    requires StrictlyIncreasing(s)
    requires forall v :: v in s ==> x < v
    ensures StrictlyIncreasing([x] + s)
  {
    forall i, j | 0 <= i < j < |[x] + s| ensures ([x] + s)[i] < ([x] + s)[j] {
      assert ([x] + s)[j] == s[j - 1] && s[j - 1] in s;
      if i > 0 {
        assert ([x] + s)[i] == s[i - 1];
      }
    }
  }

  /** Inserts `x` into an ascending, duplicate-free sequence. */
  function Insert(x: int, s: seq<int>): (r: seq<int>)
    requires StrictlyIncreasing(s)
    ensures StrictlyIncreasing(r)
    ensures forall v :: v in r <==> v == x || v in s
  {
    if s == [] then [x]
    else if x == s[0] then s
    else
      HeadBelowTail(s);
      assert s == [s[0]] + s[1..];
      if x < s[0] then
        ConsIncreasing(x, s);
        [x] + s
      else
        var rest := Insert(x, s[1..]);
        ConsIncreasing(s[0], rest);
        [s[0]] + rest
  }

  /** `sorted(set(xs))`: the distinct values of `xs`, ascending. */
  function SortedSet(xs: seq<int>): (r: seq<int>)
    ensures StrictlyIncreasing(r)
    ensures forall v :: v in r <==> v in xs
  {
    if xs == [] then [] else Insert(xs[|xs| - 1], SortedSet(xs[..|xs| - 1]))
  }

  /** In an ascending sequence the first value is below every later one. */
  lemma HeadBelowTail(s: seq<int>)
    requires StrictlyIncreasing(s) && s != []
    ensures forall v :: v in s[1..] ==> s[0] < v
  {
    forall v | v in s[1..] ensures s[0] < v {
      var i :| 0 <= i < |s[1..]| && s[1..][i] == v;
      assert s[i + 1] == v;
    }
  }

  /** An ascending, duplicate-free sequence is determined by its values, so `SortedSet` is the
      only such ordering of the keyframe times. */
  lemma {:induction false} StrictlyIncreasingUnique(a: seq<int>, b: seq<int>)
    requires StrictlyIncreasing(a) && StrictlyIncreasing(b)
    requires forall v :: v in a <==> v in b
    ensures a == b
  {
    assert a == [] <==> b == [] by {
      if a != [] {
        assert a[0] in a;
      }
      if b != [] {
        assert b[0] in b;
      }
    }
    if a != [] {
      assert a[0] in a && b[0] in b;
      assert a[0] == b[0] by {
        assert a[0] in b && b[0] in a;
      }
      HeadBelowTail(a);
      HeadBelowTail(b);
      assert a == [a[0]] + a[1..] && b == [b[0]] + b[1..];
      forall v ensures v in a[1..] <==> v in b[1..] {
        if v in a[1..] {
          assert v in a && v in b && v != b[0];
        }
        if v in b[1..] {
          assert v in b && v in a && v != a[0];
        }
      }
      StrictlyIncreasingUnique(a[1..], b[1..]);
    }
  }

  /** The keyframes kept by a timeline selection `[lo, hi]`, both ends included, in order. */
  function InRange(ks: seq<int>, lo: int, hi: int): (r: seq<int>)
    ensures forall v :: v in r <==> v in ks && lo <= v <= hi
    ensures StrictlyIncreasing(ks) ==> StrictlyIncreasing(r)
  {
    if ks == [] then []
    else
      var rest := InRange(ks[1..], lo, hi);
      if StrictlyIncreasing(ks) then
        HeadBelowTail(ks);
        assert StrictlyIncreasing(ks[1..]);
        if lo <= ks[0] <= hi then
          ConsIncreasing(ks[0], rest);
          [ks[0]] + rest
        else
          rest
      else
      (if lo <= ks[0] <= hi then [ks[0]] else []) + rest
  }

  /** The target's keyframe times, ascending and distinct; a query that raises gives none. */
  function Keyframes(keys: map<Obj, seq<int>>, target: Obj): seq<int>
  {
    if target in keys then SortedSet(keys[target]) else []
  }

  // ---------------------------------------------------------------------------------------
  // What one press of "Apply" does

  /** The outcome of the checks at the top of `apply_changes`. */
  datatype Plan =
    | Warn                                          // more than two objects selected
    | Fail(error: string)                           // the code raises before touching the scene
    | ApplyHere(target: Obj)                        // one switch at the current frame
    | JumpAndApply(target: Obj, frame: int)         // move to the single kept keyframe, then switch
    | Bake(target: Obj, frames: seq<int>)           // two-pass bake over these frames

  /** The object whose world pose is held: the second of two selected, else the only one. */
  function Target(sel: seq<Obj>): Obj
    requires 1 <= |sel| <= 2
  {
    if |sel| == 2 then sel[1] else sel[0]
  }

  /** Target resolution and frame-set derivation, given the selection, the keyframe query, the
      timeline's range selection (visible or not, and its ends) and the "apply to all frames" toggle. */
  function PlanFor(sel: seq<Obj>, keys: map<Obj, seq<int>>, rangeVisible: bool, range: (int, int), allFrames: bool): (r: Plan)
    ensures r.Warn? <==> |sel| > 2
    ensures r == Fail("UnboundLocalError") <==> sel == []
    ensures r.ApplyHere? || r.JumpAndApply? || r.Bake? ==> r.target == sel[|sel| - 1]
    ensures r.Bake? ==> |r.frames| >= 2 && StrictlyIncreasing(r.frames)
  {
    if |sel| > 2 then Warn
    else if |sel| == 0 then Fail("UnboundLocalError")
    else
      var target := Target(sel);
      var ks := Keyframes(keys, target);
      if ks == [] then ApplyHere(target)
      else if rangeVisible then
        var kept := InRange(ks, range.0, range.1);
        if |kept| >= 2 then Bake(target, kept)
        else if |kept| == 1 then JumpAndApply(target, kept[0])
        else Fail("IndexError")
      else if !allFrames then ApplyHere(target)
      else if |ks| == 1 then ApplyHere(target)
      else Bake(target, ks)
  }

  /** More than two selected objects is refused, none selected raises, and otherwise the target is
      the second of two or the only one. */
  lemma PlanTarget(sel: seq<Obj>, keys: map<Obj, seq<int>>, rangeVisible: bool, range: (int, int), allFrames: bool)
    ensures PlanFor(sel, keys, rangeVisible, range, allFrames).Warn? <==> |sel| > 2
    ensures |sel| == 0 ==> PlanFor(sel, keys, rangeVisible, range, allFrames) == Fail("UnboundLocalError")
    ensures 1 <= |sel| <= 2 ==>
      PlanFor(sel, keys, rangeVisible, range, allFrames) == Fail("IndexError")
      || PlanFor(sel, keys, rangeVisible, range, allFrames).target == (if |sel| == 2 then sel[1] else sel[0])
  {
  }

  /** A bake runs over at least two ascending, distinct frames, which are exactly the target's
      keyframes inside the timeline selection when one is visible, and all of them otherwise
      (only when the toggle is on). */
  lemma PlanBakeFrames(sel: seq<Obj>, keys: map<Obj, seq<int>>, rangeVisible: bool, range: (int, int), allFrames: bool)
    requires PlanFor(sel, keys, rangeVisible, range, allFrames).Bake?
    ensures var p := PlanFor(sel, keys, rangeVisible, range, allFrames);
      && 1 <= |sel| <= 2 && p.target == Target(sel)
      && |p.frames| >= 2 && StrictlyIncreasing(p.frames)
      && p.target in keys
      && (forall v :: v in p.frames <==> v in keys[p.target] && (rangeVisible ==> range.0 <= v <= range.1))
      && (!rangeVisible ==> allFrames)
  {
  }

  /** A single switch at the current frame happens exactly when the target has no keyframes, or
      there is no timeline selection and either the toggle is off or there is one keyframe. */
  lemma PlanApplyHere(sel: seq<Obj>, keys: map<Obj, seq<int>>, rangeVisible: bool, range: (int, int), allFrames: bool)
    requires 1 <= |sel| <= 2
    ensures var ks := Keyframes(keys, Target(sel));
      PlanFor(sel, keys, rangeVisible, range, allFrames).ApplyHere? <==>
        (ks == [] || (!rangeVisible && (!allFrames || |ks| == 1)))
  {
  }

  /** With a timeline selection, one kept keyframe means jumping to it for a single switch, and
      none kept raises (the code indexes the first element of an empty list). */
  lemma PlanRangeFewerThanTwo(sel: seq<Obj>, keys: map<Obj, seq<int>>, range: (int, int), allFrames: bool)
    requires 1 <= |sel| <= 2
    requires Keyframes(keys, Target(sel)) != []
    ensures var kept := InRange(Keyframes(keys, Target(sel)), range.0, range.1);
      && (|kept| == 1 ==> PlanFor(sel, keys, true, range, allFrames) == JumpAndApply(Target(sel), kept[0]))
      && (|kept| == 0 ==> PlanFor(sel, keys, true, range, allFrames) == Fail("IndexError"))
      && (|kept| == 0 <==> forall v :: v in keys[Target(sel)] ==> !(range.0 <= v <= range.1))
  {
    var kept := InRange(Keyframes(keys, Target(sel)), range.0, range.1);
    if |kept| != 0 {
      assert kept[0] in kept;
    }
  }

  /** Keys at 1, 24 and 48 with the timeline selection [1, 24] bake exactly frames 1 and 24. */
  lemma PlanScenarioRange()
    ensures PlanFor(["Arm_IK"], map["Arm_IK" := [1, 24, 48]], true, (1, 24), false) == Bake("Arm_IK", [1, 24])
  {
    var ks := Keyframes(map["Arm_IK" := [1, 24, 48]], "Arm_IK");
    StrictlyIncreasingUnique(ks, [1, 24, 48]);
    var kept := InRange(ks, 1, 24);
    StrictlyIncreasingUnique(kept, [1, 24]);
  }

  /** A single keyframe with no timeline selection and the toggle off switches at the current frame. */
  lemma PlanScenarioSingleKey()
    ensures PlanFor(["Arm_IK"], map["Arm_IK" := [10]], false, (0, 0), false) == ApplyHere("Arm_IK")
  {
    assert 10 in Keyframes(map["Arm_IK" := [10]], "Arm_IK");
  }

  /** An object without keyframes always gets a single switch, whatever the range and the toggle. */
  lemma PlanScenarioNoKeys(rangeVisible: bool, range: (int, int), allFrames: bool)
    ensures PlanFor(["Arm_IK"], map[], rangeVisible, range, allFrames) == ApplyHere("Arm_IK")
  {
  }

  // ---------------------------------------------------------------------------------------
  // Which attributes are offered (`getEnum`)

  /** What the attribute queries report about one attribute of the selected node. */
  datatype AttrInfo = AttrInfo(kind: string, enumNames: string)

  /** The query results `getEnum` works from: the channel-box listing (empty when the query gives
      nothing), the animatable plugs as full paths, and the per-attribute query, absent for an
      attribute whose query raises. */
  datatype NodeAttrs = NodeAttrs(channelBox: seq<string>, animatable: seq<string>, info: map<string, AttrInfo>)

  /** The animatable plugs not listed in the channel box, in their order. */
  function Unlisted(plugs: seq<string>, channelBox: seq<string>): (r: seq<string>)
    ensures Subsequence(r, plugs)
    ensures forall p :: p in r <==> p in plugs && p !in channelBox
  {
    if plugs == [] then []
    else
      var rest := Unlisted(plugs[1..], channelBox);
      assert forall p :: p in plugs <==> p == plugs[0] || p in plugs[1..];
      if plugs[0] in channelBox then rest else [plugs[0]] + rest
  }

  /** The short name of every animatable plug that is not itself listed in the channel box query.
      The listing holds short names and the plugs are full paths, so the test compares the two as
      the code does. */
  function ShortNames(plugs: seq<string>, channelBox: seq<string>): (r: seq<string>)
    ensures |r| <= |plugs|
    ensures forall a :: a in r ==> '.' !in a
    ensures forall a :: a in r <==> exists p :: p in plugs && p !in channelBox && a == Text.LastSegment(p, '.')
  {
    if plugs == [] then []
    else
      var rest := ShortNames(plugs[1..], channelBox);
      assert forall p :: p in plugs <==> p == plugs[0] || p in plugs[1..];
      if plugs[0] in channelBox then rest else [Text.LastSegment(plugs[0], '.')] + rest
  }

  /** The short names follow the unlisted plugs one for one, in order. */
  lemma {:induction false} ShortNamesInOrder(plugs: seq<string>, channelBox: seq<string>)
    ensures |ShortNames(plugs, channelBox)| == |Unlisted(plugs, channelBox)|
    ensures forall i :: 0 <= i < |Unlisted(plugs, channelBox)| ==>
      ShortNames(plugs, channelBox)[i] == Text.LastSegment(Unlisted(plugs, channelBox)[i], '.')
  {
    if plugs != [] {
      var sn, u := ShortNames(plugs, channelBox), Unlisted(plugs, channelBox);
      var sn', u' := ShortNames(plugs[1..], channelBox), Unlisted(plugs[1..], channelBox);
      ShortNamesInOrder(plugs[1..], channelBox);
      if plugs[0] !in channelBox {
        assert sn == [Text.LastSegment(plugs[0], '.')] + sn' && u == [plugs[0]] + u';
        forall i | 1 <= i < |u|
          ensures sn[i] == Text.LastSegment(u[i], '.')
        {
          assert sn[i] == sn'[i - 1] && u[i] == u'[i - 1];
        }
      } else {
        assert sn == sn' && u == u';
      }
    }
  }

  /** The candidates, in order: the short names, then "rotateOrder" when the rotate-order option
      is on and there is at least one short name. */
  function Candidates(node: NodeAttrs, rOrder: bool): seq<string>
  {
    var ordered := ShortNames(node.animatable, node.channelBox);
    if ordered != [] && rOrder then ordered + ["rotateOrder"] else ordered
  }

  /** An attribute is offered when its type query succeeds and says "enum" and one of its enum
      labels is a non-empty run of letters and digits. */
  predicate Switchable(info: map<string, AttrInfo>, a: string)
  {
    && a in info && info[a].kind == "enum"
    && exists l :: l in Text.Split(info[a].enumNames, ':') && Text.IsAlnum(l)
  }

  /** `r` is `s` with some elements left out, the rest kept in their order. */
  predicate Subsequence(r: seq<string>, s: seq<string>)
  {
    r == [] || (s != [] && ((r[0] == s[0] && Subsequence(r[1..], s[1..])) || Subsequence(r, s[1..])))
  }

  /** The candidates that are switchable, in their order. */
  function KeepSwitchable(cands: seq<string>, info: map<string, AttrInfo>): (r: seq<string>)
    ensures |r| <= |cands|
    ensures forall a :: a in r <==> a in cands && Switchable(info, a)
    ensures Subsequence(r, cands)
  {
    if cands == [] then []
    else
      var rest := KeepSwitchable(cands[1..], info);
      assert forall a :: a in cands <==> a == cands[0] || a in cands[1..];
      if Switchable(info, cands[0]) then [cands[0]] + rest else rest
  }

  /** `getEnum`: the switchable attributes of the first selected node. */
  function GetEnum(node: NodeAttrs, rOrder: bool): (r: seq<string>)
    ensures forall a :: a in r ==> Switchable(node.info, a)
    ensures Subsequence(r, Candidates(node, rOrder))
  {
    KeepSwitchable(Candidates(node, rOrder), node.info)
  }

  /** An attribute is offered exactly when it is switchable and either the short name of an
      animatable plug not in the channel-box listing, or "rotateOrder" with the option on and
      some animatable plug left. */
  lemma GetEnumMembers(node: NodeAttrs, rOrder: bool, a: string)
    ensures a in GetEnum(node, rOrder) <==>
      && Switchable(node.info, a)
      && ((exists p :: p in node.animatable && p !in node.channelBox && a == Text.LastSegment(p, '.'))
          || (a == "rotateOrder" && rOrder && ShortNames(node.animatable, node.channelBox) != []))
  {
  }

  /** With the option off, "rotateOrder" is offered only as the short name of an animatable plug;
      and nothing is offered when no animatable plug is left. */
  lemma GetEnumRotateOrder(node: NodeAttrs)
    ensures "rotateOrder" in GetEnum(node, false) ==> "rotateOrder" in ShortNames(node.animatable, node.channelBox)
    ensures ShortNames(node.animatable, node.channelBox) == [] ==> GetEnum(node, true) == [] && GetEnum(node, false) == []
  {
  }

  /** The filter keeps each part of a concatenation on its own. */
  lemma {:induction false} KeepSwitchableAppend(a: seq<string>, b: seq<string>, info: map<string, AttrInfo>)
    ensures KeepSwitchable(a + b, info) == KeepSwitchable(a, info) + KeepSwitchable(b, info)
  {
    if a != [] {
      assert (a + b)[0] == a[0] && (a + b)[1..] == a[1..] + b;
      KeepSwitchableAppend(a[1..], b, info);
    } else {
      assert a + b == b;
    }
  }

  /** With the option on, a switchable "rotateOrder" is offered last, after the switchable short
      names, even when one of those short names is already "rotateOrder". */
  lemma GetEnumRotateOrderLast(node: NodeAttrs)
    requires Switchable(node.info, "rotateOrder")
    ensures var names := ShortNames(node.animatable, node.channelBox);
      names != [] ==> GetEnum(node, true) == KeepSwitchable(names, node.info) + ["rotateOrder"]
  {
    var names := ShortNames(node.animatable, node.channelBox);
    if names != [] {
      KeepSwitchableAppend(names, ["rotateOrder"], node.info);
      assert ["rotateOrder"][1..] == [];
    }
  }

  /** The short name of `prefix.leaf` when neither part has a dot. */
  lemma LastSegmentOfPlug(prefix: string, leaf: string)
    requires '.' !in prefix && '.' !in leaf
    ensures Text.LastSegment(prefix + "." + leaf, '.') == leaf
  {
    assert prefix + "." + leaf == prefix + ['.'] + leaf;
    Text.SplitAtFirst(prefix, leaf, '.');
    Text.SplitNoSep(leaf, '.');
  }

  /** An enum whose labels are `first:second`, neither with a colon, is switchable exactly when
      one of the two is a non-empty run of letters and digits. */
  lemma SwitchableTwoLabels(info: map<string, AttrInfo>, a: string, first: string, second: string)
    requires a in info && info[a] == AttrInfo("enum", first + ":" + second)
    requires ':' !in first && ':' !in second
    ensures Switchable(info, a) <==> Text.IsAlnum(first) || Text.IsAlnum(second)
  {
    assert first + ":" + second == first + [':'] + second;
    Text.SplitAtFirst(first, second, ':');
    Text.SplitNoSep(second, ':');
    assert Text.Split(info[a].enumNames, ':') == [first, second];
  }

  /** The plugs of a control `ctrl` give their attribute names, in order. */
  lemma ShortNamesOfControl(ctrl: string, x: string, y: string, z: string)
    requires '.' !in ctrl && '.' !in x && '.' !in y && '.' !in z
    ensures ShortNames([ctrl + "." + x, ctrl + "." + y, ctrl + "." + z], []) == [x, y, z]
  {
    var plugs := [ctrl + "." + x, ctrl + "." + y, ctrl + "." + z];
    LastSegmentOfPlug(ctrl, x);
    LastSegmentOfPlug(ctrl, y);
    LastSegmentOfPlug(ctrl, z);
    assert plugs[1..] == [ctrl + "." + y, ctrl + "." + z] && plugs[1..][1..] == [ctrl + "." + z];
    assert plugs[1..][1..][1..] == [];
    assert ShortNames(plugs[1..][1..], []) == [z];
    assert ShortNames(plugs[1..], []) == [y, z];
  }

  /** Of three candidates only the first is switchable: only it is kept. */
  lemma KeepFirstOfThree(x: string, y: string, z: string, info: map<string, AttrInfo>)
    requires Switchable(info, x) && !Switchable(info, y) && !Switchable(info, z)
    ensures KeepSwitchable([x, y, z], info) == [x]
  {
    var cands := [x, y, z];
    assert cands[1..] == [y, z] && cands[1..][1..] == [z] && cands[1..][1..][1..] == [];
    assert KeepSwitchable(cands[1..][1..], info) == [];
    assert KeepSwitchable(cands[1..], info) == [];
  }

  /** A control with a "space" enum labelled World and Local, a float channel and an enum whose
      labels are all punctuation offers only "space". */
  lemma GetEnumScenario(ctrl: string, info: map<string, AttrInfo>)
    requires '.' !in ctrl
    requires info == map["space" := AttrInfo("enum", "World" + ":" + "Local"),
      "translateX" := AttrInfo("doubleLinear", ""), "divider" := AttrInfo("enum", "--" + ":" + "__")]
    ensures GetEnum(NodeAttrs([], [ctrl + "." + "space", ctrl + "." + "translateX", ctrl + "." + "divider"], info), false)
      == ["space"]
  {
    var node := NodeAttrs([], [ctrl + "." + "space", ctrl + "." + "translateX", ctrl + "." + "divider"], info);
    ShortNamesOfControl(ctrl, "space", "translateX", "divider");
    assert Candidates(node, false) == ["space", "translateX", "divider"];
    ScenarioSwitchable(info);
    KeepFirstOfThree("space", "translateX", "divider", info);
  }

  /** Which attributes of that control are switchable. */
  lemma ScenarioSwitchable(info: map<string, AttrInfo>)
    requires info == map["space" := AttrInfo("enum", "World" + ":" + "Local"),
      "translateX" := AttrInfo("doubleLinear", ""), "divider" := AttrInfo("enum", "--" + ":" + "__")]
    ensures Switchable(info, "space") && !Switchable(info, "translateX") && !Switchable(info, "divider")
  {
    assert Switchable(info, "space") by {
      SwitchableTwoLabels(info, "space", "World", "Local");
      assert Text.IsAlnum("World");
    }
    assert !Switchable(info, "translateX") by {
      assert info["translateX"].kind == "doubleLinear" != "enum";
    }
    assert !Switchable(info, "divider") by {
      SwitchableTwoLabels(info, "divider", "--", "__");
      assert !Text.IsAlnumChar("--"[0]) && !Text.IsAlnumChar("__"[0]);
    }
  }

  // ---------------------------------------------------------------------------------------
  // What the panel shows (`refresh`, `set_combobox`)

  /** How a selected node's name is shown: the text and whether it is right-aligned. */
  datatype NameLabel = NameLabel(text: string, rightAligned: bool)

  /** The namespace shortening in `refresh`: with namespaces hidden a namespaced name is shown as
      "...:" and the segment after its first colon, left-aligned; with namespaces shown it is
      shown whole and right-aligned; a name without a namespace is shown whole, left-aligned. */
  function DisplayName(name: string, showNamespaces: bool): (r: NameLabel)
    ensures ':' !in name || showNamespaces ==> r.text == name
    ensures r.rightAligned <==> ':' in name && showNamespaces
    ensures ':' in name && !showNamespaces ==> |r.text| >= 4 && r.text[..4] == "...:" && ':' !in r.text[4..]
  {
    if ':' in name then
      if showNamespaces then NameLabel(name, true) else NameLabel("...:" + Text.Split(name, ':')[1], false)
    else NameLabel(name, false)
  }

  /** With namespaces hidden, `ns:leaf` is shown as `...:leaf`; a nested `a:b:rest` keeps only the
      second segment `b`. */
  lemma DisplayNameHidden(ns: string, leaf: string, rest: Option<string>)
    requires ':' !in ns && ':' !in leaf
    ensures var name := if rest.Some? then ns + ":" + leaf + ":" + rest.value else ns + ":" + leaf;
      DisplayName(name, false) == NameLabel("...:" + leaf, false)
  {
    if rest.Some? {
      Text.SplitAtFirst(ns, leaf + ":" + rest.value, ':');
      assert ns + ":" + leaf + ":" + rest.value == ns + [':'] + (leaf + ":" + rest.value);
      Text.SplitAtFirst(leaf, rest.value, ':');
      assert leaf + ":" + rest.value == leaf + [':'] + rest.value;
    } else {
      Text.SplitAtFirst(ns, leaf, ':');
      Text.SplitNoSep(leaf, ':');
      assert ns + ":" + leaf == ns + [':'] + leaf;
    }
    assert ':' in ns + ":" + leaf by { assert (ns + ":" + leaf)[|ns|] == ':'; }
    if rest.Some? {
      assert ':' in ns + ":" + leaf + ":" + rest.value by { assert (ns + ":" + leaf + ":" + rest.value)[|ns|] == ':'; }
    }
  }

  /** What the attribute drop-down holds after `refresh`. */
  datatype Combo =
    | NoEnum                       // nothing offered: apply and the drop-down are disabled
    | Values(attr: string)         // the drop-down lists this attribute's enum labels
    | Choose(attrs: seq<string>)   // the drop-down lists the offered attributes, apply disabled

  /** The drop-down choice in `refresh`: one offered attribute is shown directly; with several, the
      attribute picked earlier is kept only on a time-change refresh, otherwise the user must pick. */
  function ComboFor(offered: seq<string>, timeChange: bool, picked: Option<string>): (r: Combo)
    ensures r.NoEnum? <==> offered == []
    ensures r.Values? ==>
      (|offered| == 1 && r.attr == offered[0])
      || (|offered| >= 2 && timeChange && picked == Some(r.attr) && r.attr != "")
    ensures r.Choose? ==> r.attrs == offered && |offered| >= 2
    ensures |offered| >= 2 && !timeChange ==> r == Choose(offered)
    ensures |offered| >= 2 && timeChange && picked.Some? && picked.value != "" ==> r == Values(picked.value)
    ensures |offered| >= 2 && (picked.None? || picked == Some("")) ==> r == Choose(offered)
  {
    if |offered| == 0 then NoEnum
    else if |offered| == 1 then Values(offered[0])
    else if timeChange && picked.Some? && picked.value != "" then Values(picked.value)
    else Choose(offered)
  }

  /** `set_combobox`: list the attribute's enum labels, in order, and select the one at the
      attribute's current value; when no label sits there the first one stays selected. */
  method SetCombobox(enumNames: string, current: int) returns (items: seq<string>, selected: nat)
    ensures items == Text.Split(enumNames, ':')
    ensures Text.Join(items, ":") == enumNames
    ensures selected < |items|
    ensures 0 <= current < |items| ==> selected == current
    ensures !(0 <= current < |items|) ==> selected == 0
  {
    var options := Text.Split(enumNames, ':');
    Text.JoinSplit(enumNames, ':');
    items := [];
    selected := 0;
    var i := 0;
    while i < |options|
      invariant 0 <= i <= |options| && items == options[..i]
      invariant selected == (if 0 <= current < i then current else 0)
    {
      items := items + [options[i]];
      if i == current {
        selected := i;
      }
      i := i + 1;
    }
    assert items == options;
  }

  // ---------------------------------------------------------------------------------------
  // The host-side steps

  /** The record of enum writes after switching `plug` to `v` at each of `frames`, in order. */
  function Stamp(m: map<(Plug, int), int>, plug: Plug, frames: seq<int>, v: int): map<(Plug, int), int>
  {
    if frames == [] then m else Stamp(m, plug, frames[..|frames| - 1], v)[(plug, frames[|frames| - 1]) := v]
  }

  /** After stamping, `plug` holds `v` at every stamped frame and every other entry is as before. */
  lemma {:induction false} StampAt(m: map<(Plug, int), int>, plug: Plug, frames: seq<int>, v: int)
    ensures forall f :: f in frames ==> (plug, f) in Stamp(m, plug, frames, v) && Stamp(m, plug, frames, v)[(plug, f)] == v
    ensures forall k: (Plug, int) :: k.0 != plug || k.1 !in frames ==>
      (k in Stamp(m, plug, frames, v) <==> k in m) && (k in m ==> Stamp(m, plug, frames, v)[k] == m[k])
  {
    if frames != [] {
      var init := frames[..|frames| - 1];
      StampAt(m, plug, init, v);
      assert forall f :: f in frames ==> f in init || f == frames[|frames| - 1];
      assert forall f :: f in init ==> f in frames;
    }
  }

  /** `do_xform`: take the target's world matrix (the captured one when given, else the current
      one), set `sel[0]`'s enum attribute to `index`, then write the matrix back onto the target.
      A rejected enum write raises before the matrix is written. */
  method DoXform(host: Host, sel0: Obj, target: Obj, attr: string, index: int, captured: Option<Mat>) returns (ok: bool)
    modifies host`world, host`enumAt
    ensures ok <==> Plug(sel0, attr) !in host.locked
    ensures ok ==> host.enumAt == old(host.enumAt)[(Plug(sel0, attr), host.time) := index]
    ensures ok ==>
      host.world(target, host.time) == (if captured.Some? then captured.value else old(host.world)(target, host.time))
    ensures !ok ==> host.enumAt == old(host.enumAt) && host.world == old(host.world)
    ensures forall p, t :: t != host.time ==> host.world(p, t) == old(host.world)(p, t)
  {
    var m: Mat;
    if captured.Some? {
      m := captured.value;
    } else {
      m := host.QueryWorld(target);
    }
    ok := host.SetEnum(Plug(sel0, attr), index);
    if ok {
      host.WriteWorld(target, m);
    }
  }

  /** The status updates `from + 1 .. from + count` of a progress bar of `max` steps. */
  function Steps(phase: Phase, from: int, count: nat, max: int): (r: seq<ProgressEvent>)
    ensures |r| == count
    ensures forall k :: 0 <= k < count ==> r[k] == Step(phase, from + k + 1, max)
  {
    if count == 0 then [] else Steps(phase, from, count - 1, max) + [Step(phase, from + count, max)]
  }

  /** The progress-bar calls of a bake over `n` frames: a bar of `n` steps for saving, ended, then
      a fresh bar of `n` steps for applying, ended only when the bake finishes normally. */
  function BakeProgress(n: nat, ok: bool): seq<ProgressEvent>
  {
    SavingProgress(n) + (if ok then Steps(Applying, 0, n, n) + [End] else [])
  }

  /** The saving bar of a bake over `n` frames, ended, and the applying bar started. */
  function SavingProgress(n: nat): seq<ProgressEvent>
  {
    [Begin(n)] + Steps(Saving, 0, n, n) + [End, Begin(n)]
  }

  /** Pass 1 of `multiple_frames`: visit every frame and record the target's world matrix. */
  method CaptureFrames(host: Host, target: Obj, frames: seq<int>, from: int, max: int) returns (captured: seq<Mat>)
    modifies host`time, host`progress
    ensures |captured| == |frames|
    ensures forall i :: 0 <= i < |frames| ==> captured[i] == host.world(target, frames[i])
    ensures host.progress == old(host.progress) + Steps(Saving, from, |frames|, max)
  {
    var n := |frames|;
    captured := [];
    var i := 0;
    while i < n
      invariant 0 <= i <= n && |captured| == i
      invariant forall j :: 0 <= j < i ==> captured[j] == host.world(target, frames[j])
      invariant host.progress == old(host.progress) + Steps(Saving, from, i, max)
    {
      host.SetTime(frames[i]);
      var m := host.QueryWorld(target);
      captured := captured + [m];
      host.Report(Step(Saving, from + i + 1, max));
      i := i + 1;
    }
  }

  /** Pass 2 of `multiple_frames`: at every frame in turn, switch the enum and write back that
      frame's recorded matrix; the first rejected switch raises and ends the pass. */
  method ApplyFrames(host: Host, sel0: Obj, target: Obj, attr: string, index: int, frames: seq<int>, captured: seq<Mat>,
    from: int, max: int)
    returns (ok: bool)
    requires |frames| > 0 && |captured| == |frames|
    requires forall i :: 0 <= i < |frames| ==> captured[i] == host.world(target, frames[i])
    modifies host`time, host`world, host`enumAt, host`progress
    ensures ok <==> Plug(sel0, attr) !in host.locked
    ensures ok ==> forall i :: 0 <= i < |frames| ==> host.world(target, frames[i]) == old(host.world)(target, frames[i])
    ensures ok ==> host.enumAt == Stamp(old(host.enumAt), Plug(sel0, attr), frames, index)
    ensures ok ==> host.progress == old(host.progress) + Steps(Applying, from, |frames|, max)
    ensures !ok ==> host.time == frames[0] && host.world == old(host.world) && host.enumAt == old(host.enumAt)
    ensures !ok ==> host.progress == old(host.progress)
    ensures forall o, t :: t !in frames ==> host.world(o, t) == old(host.world)(o, t)
  {
    var n := |frames|;
    var plug := Plug(sel0, attr);
    ok := true;
    var i := 0;
    while i < n
      invariant 0 <= i <= n && ok
      invariant i > 0 ==> plug !in host.locked
      invariant i == 0 ==> host.world == old(host.world) && host.enumAt == old(host.enumAt)
      invariant forall j :: 0 <= j < i ==> host.world(target, frames[j]) == old(host.world)(target, frames[j])
      invariant forall o, t :: t !in frames[..i] ==> host.world(o, t) == old(host.world)(o, t)
      invariant host.enumAt == Stamp(old(host.enumAt), plug, frames[..i], index)
      invariant host.progress == old(host.progress) + Steps(Applying, from, i, max)
    {
      host.SetTime(frames[i]);
      ghost var before := host.world;
      ok := DoXform(host, sel0, target, attr, index, Some(captured[i]));
      if !ok {
        break;
      }
      forall j | 0 <= j < i + 1
        ensures host.world(target, frames[j]) == old(host.world)(target, frames[j])
      {
        if frames[j] != frames[i] {
          assert host.world(target, frames[j]) == before(target, frames[j]);
        }
      }
      assert frames[..i + 1][..i] == frames[..i];
      assert forall t :: t !in frames[..i + 1] ==> t !in frames[..i] && t != frames[i];
      host.Report(Step(Applying, from + i + 1, max));
      i := i + 1;
    }
    if ok {
      assert frames[..n] == frames;
    }
  }

  /** The set-up of `multiple_frames`: open an undo chunk, stop the tool's event jobs, suspend
      refresh and start the saving bar. */
  method EnterBake(host: Host, n: nat)
    modifies host`openChunks, host`listening, host`refreshSuspended, host`progress
    ensures host.openChunks == old(host.openChunks) + 1 && !host.listening && host.refreshSuspended
    ensures host.progress == old(host.progress) + [Begin(n)]
  {
    host.OpenChunk();
    host.SetListening(false);
    host.SuspendRefresh(true);
    host.Report(Begin(n));
  }

  /** The `finally` block of `multiple_frames`: resume refresh, close the undo chunk, reinstall the
      tool's event jobs. */
  method LeaveBake(host: Host)
    requires host.openChunks > 0
    modifies host`openChunks, host`listening, host`refreshSuspended
    ensures host.openChunks == old(host.openChunks) - 1 && host.listening && !host.refreshSuspended
  {
    host.SuspendRefresh(false);
    host.CloseChunk();
    host.SetListening(true);
  }

  /** The two passes of `multiple_frames` and, when pass 2 completes, the return to the saved time. */
  method BakePasses(host: Host, sel0: Obj, target: Obj, attr: string, index: int, frames: seq<int>)
    returns (ok: bool, captured: seq<Mat>)
    requires |frames| > 0
    modifies host`time, host`world, host`enumAt, host`progress
    ensures |captured| == |frames|
    ensures forall i :: 0 <= i < |frames| ==> captured[i] == old(host.world)(target, frames[i])
    ensures ok <==> Plug(sel0, attr) !in host.locked
    ensures ok ==> host.time == old(host.time)
    ensures ok ==> forall i :: 0 <= i < |frames| ==> host.world(target, frames[i]) == old(host.world)(target, frames[i])
    ensures ok ==> host.enumAt == Stamp(old(host.enumAt), Plug(sel0, attr), frames, index)
    ensures !ok ==> host.time == frames[0] && host.world == old(host.world) && host.enumAt == old(host.enumAt)
    ensures forall o, t :: t !in frames ==> host.world(o, t) == old(host.world)(o, t)
    ensures host.progress == old(host.progress) + Steps(Saving, 0, |frames|, |frames|) + [End, Begin(|frames|)]
      + (if ok then Steps(Applying, 0, |frames|, |frames|) + [End] else [])
  {
    var n := |frames|;
    var saved := host.time;
    captured := CaptureFrames(host, target, frames, 0, n);
    host.Report(End);
    host.Report(Begin(n));
    ok := ApplyFrames(host, sel0, target, attr, index, frames, captured, 0, n);
    if ok {
      host.SetTime(saved);
      host.Report(End);
    }
  }

  /** `multiple_frames`: open an undo chunk, stop the tool's event jobs, suspend refresh; pass 1
      visits every frame and records the target's world matrix; pass 2 revisits every frame,
      switches `sel[0]`'s enum and writes back that frame's recorded matrix; then the saved time is
      restored. Refresh, the undo chunk and the event jobs are restored whether or not pass 2 raised. */
  method MultipleFrames(host: Host, sel0: Obj, target: Obj, attr: string, index: int, frames: seq<int>)
    returns (ok: bool, captured: seq<Mat>)
    requires |frames| > 0
    modifies host
    ensures host.locked == old(host.locked) && host.keys == old(host.keys)
    ensures |captured| == |frames|
    ensures forall i :: 0 <= i < |frames| ==> captured[i] == old(host.world)(target, frames[i])
    ensures ok <==> Plug(sel0, attr) !in host.locked
    ensures ok ==> host.time == old(host.time)
    ensures ok ==> forall i :: 0 <= i < |frames| ==> host.world(target, frames[i]) == old(host.world)(target, frames[i])
    ensures ok ==> host.enumAt == Stamp(old(host.enumAt), Plug(sel0, attr), frames, index)
    ensures !ok ==> host.time == frames[0] && host.world == old(host.world) && host.enumAt == old(host.enumAt)
    ensures forall o, t :: t !in frames ==> host.world(o, t) == old(host.world)(o, t)
    ensures !host.refreshSuspended && host.openChunks == old(host.openChunks) && host.listening
    ensures host.progress == old(host.progress) + BakeProgress(|frames|, ok)
  {
    EnterBake(host, |frames|);
    ok, captured := BakePasses(host, sel0, target, attr, index, frames);
    LeaveBake(host);
  }

  /** `apply_changes`: decide the plan, then carry it out on the host. A warning or an error raised
      before the first host call leaves the scene untouched. Every switch writes the enum of the
      first selected object and the world matrix of the target. */
  method ApplyChanges(host: Host, sel: seq<Obj>, attr: string, index: int, rangeVisible: bool, range: (int, int), allFrames: bool)
    returns (plan: Plan, ok: bool)
    modifies host
    ensures plan == PlanFor(sel, old(host.keys), rangeVisible, range, allFrames)
    ensures host.locked == old(host.locked) && host.keys == old(host.keys)
    ensures plan.Warn? || plan.Fail? ==>
      !ok && host.time == old(host.time) && host.world == old(host.world) && host.enumAt == old(host.enumAt)
      && host.progress == old(host.progress) && host.openChunks == old(host.openChunks)
      && host.listening == old(host.listening) && host.refreshSuspended == old(host.refreshSuspended)
    ensures !(plan.Warn? || plan.Fail?) ==> (ok <==> Plug(sel[0], attr) !in host.locked)
    ensures plan.ApplyHere? ==> host.time == old(host.time)
    ensures plan.JumpAndApply? ==> host.time == plan.frame
    ensures (plan.ApplyHere? || plan.JumpAndApply?) && ok ==>
      && host.world(plan.target, host.time) == old(host.world)(plan.target, host.time)
      && host.enumAt == old(host.enumAt)[(Plug(sel[0], attr), host.time) := index]
    ensures plan.Bake? && ok ==>
      && host.time == old(host.time)
      && (forall f :: f in plan.frames ==> host.world(plan.target, f) == old(host.world)(plan.target, f))
      && host.enumAt == Stamp(old(host.enumAt), Plug(sel[0], attr), plan.frames, index)
    ensures plan.Bake? ==> forall o, t :: t !in plan.frames ==> host.world(o, t) == old(host.world)(o, t)
    ensures plan.Bake? && !ok ==>
      host.time == plan.frames[0] && host.world == old(host.world) && host.enumAt == old(host.enumAt)
    ensures plan.Bake? ==> !host.refreshSuspended && host.openChunks == old(host.openChunks) && host.listening
    ensures plan.Bake? ==> host.progress == old(host.progress) + BakeProgress(|plan.frames|, ok)
    ensures (plan.ApplyHere? || plan.JumpAndApply?) && !ok ==>
      host.world == old(host.world) && host.enumAt == old(host.enumAt)
    ensures plan.ApplyHere? || plan.JumpAndApply? ==>
      && (forall o, t :: t != host.time ==> host.world(o, t) == old(host.world)(o, t))
      && host.progress == old(host.progress) && host.openChunks == old(host.openChunks)
      && host.refreshSuspended == old(host.refreshSuspended) && host.listening == old(host.listening)
  {
    plan := PlanFor(sel, host.keys, rangeVisible, range, allFrames);
    ok := false;
    match plan {
      case Warn =>
      case Fail(_) =>
      case ApplyHere(target) =>
        ok := DoXform(host, sel[0], target, attr, index, None);
      case JumpAndApply(target, frame) =>
        host.SetTime(frame);
        ok := DoXform(host, sel[0], target, attr, index, None);
      case Bake(target, frames) =>
        var captured;
        ok, captured := MultipleFrames(host, sel[0], target, attr, index, frames);
        forall f | f in frames
          ensures ok ==> host.world(target, f) == old(host.world)(target, f)
        {
          var i :| 0 <= i < |frames| && frames[i] == f;
        }
    }
  }
}

=== FILE: spaceswitch_legacy.dfy ===
/** The older space-switch tool (spaceswitch_pyside2.py). The apply path takes the same decisions
    as the newer tool, but its bake reports on one progress bar of twice as many steps, leaves the
    tool's event jobs alone, and its attribute filter and name display differ. */
module SpaceSwitchLegacy {
  import opened Wrappers
  import opened Scene
  import Text
  import SpaceSwitch

  // ---------------------------------------------------------------------------------------
  // The bake

  /** The progress-bar calls of a bake over `n` frames: one bar of `2n` steps, `n` saving updates
      numbered 1..n, then `n` applying updates numbered n+1..2n, ended only on a normal finish. */
  function BakeProgress(n: nat, ok: bool): seq<ProgressEvent>
  {
    [Begin(2 * n)] + SpaceSwitch.Steps(Saving, 0, n, 2 * n)
      + (if ok then SpaceSwitch.Steps(Applying, n, n, 2 * n) + [End] else [])
  }

  /** The counter shown on the bar climbs by one per captured frame and one per applied frame,
      from 1 up to the maximum `2n` on a normal finish, and the bar's maximum is `2n` throughout. */
  lemma BakeProgressCounts(n: nat, ok: bool)
    ensures var p := BakeProgress(n, ok);
      && p[0] == Begin(2 * n)
      && (forall k :: 1 <= k <= n ==> p[k] == Step(Saving, k, 2 * n))
      && (ok ==> (|p| == 2 * n + 2 && p[2 * n + 1] == End
                  && forall k :: n < k <= 2 * n ==> p[k] == Step(Applying, k, 2 * n)))
      && (!ok ==> |p| == n + 1)
  {
    var p := BakeProgress(n, ok);
    var saving := SpaceSwitch.Steps(Saving, 0, n, 2 * n);
    forall k | 1 <= k <= n
      ensures p[k] == Step(Saving, k, 2 * n)
    {
      assert p[k] == saving[k - 1];
    }
    if ok {
      var applying := SpaceSwitch.Steps(Applying, n, n, 2 * n);
      forall k | n < k <= 2 * n
        ensures p[k] == Step(Applying, k, 2 * n)
      {
        assert p[k] == applying[k - n - 1];
      }
    }
  }

  /** The two passes and, on a normal finish, the return to the saved time and the end of the bar. */
  method BakePasses(host: Host, sel0: Obj, target: Obj, attr: string, index: int, frames: seq<int>)
    returns (ok: bool, captured: seq<Mat>)
    requires |frames| > 0
    modifies host`time, host`world, host`enumAt, host`progress
    ensures |captured| == |frames|
    ensures forall i :: 0 <= i < |frames| ==> captured[i] == old(host.world)(target, frames[i])
    ensures ok <==> Plug(sel0, attr) !in host.locked
    ensures ok ==> host.time == old(host.time)
    ensures ok ==> forall i :: 0 <= i < |frames| ==> host.world(target, frames[i]) == old(host.world)(target, frames[i])
    ensures ok ==> host.enumAt == SpaceSwitch.Stamp(old(host.enumAt), Plug(sel0, attr), frames, index)
    ensures !ok ==> host.time == frames[0] && host.world == old(host.world) && host.enumAt == old(host.enumAt)
    ensures forall o, t :: t !in frames ==> host.world(o, t) == old(host.world)(o, t)
    ensures host.progress == old(host.progress) + SpaceSwitch.Steps(Saving, 0, |frames|, 2 * |frames|)
      + (if ok then SpaceSwitch.Steps(Applying, |frames|, |frames|, 2 * |frames|) + [End] else [])
  {
    var n := |frames|;
    var saved := host.time;
    captured := SpaceSwitch.CaptureFrames(host, target, frames, 0, 2 * n);
    ok := SpaceSwitch.ApplyFrames(host, sel0, target, attr, index, frames, captured, n, 2 * n);
    if ok {
      host.SetTime(saved);
      host.Report(End);
    }
  }

  /** `multiple_frames` of the older tool: open an undo chunk, suspend refresh, start one bar of
      `2n` steps, run both passes, and in the `finally` block resume refresh and close the chunk.
      The tool's event jobs are not touched. */
  method MultipleFrames(host: Host, sel0: Obj, target: Obj, attr: string, index: int, frames: seq<int>)
    returns (ok: bool, captured: seq<Mat>)
    requires |frames| > 0
    modifies host
    ensures host.locked == old(host.locked) && host.keys == old(host.keys) && host.listening == old(host.listening)
    ensures |captured| == |frames|
    ensures forall i :: 0 <= i < |frames| ==> captured[i] == old(host.world)(target, frames[i])
    ensures ok <==> Plug(sel0, attr) !in host.locked
    ensures ok ==> host.time == old(host.time)
    ensures ok ==> forall i :: 0 <= i < |frames| ==> host.world(target, frames[i]) == old(host.world)(target, frames[i])
    ensures ok ==> host.enumAt == SpaceSwitch.Stamp(old(host.enumAt), Plug(sel0, attr), frames, index)
    ensures !ok ==> host.time == frames[0] && host.world == old(host.world) && host.enumAt == old(host.enumAt)
    ensures forall o, t :: t !in frames ==> host.world(o, t) == old(host.world)(o, t)
    ensures !host.refreshSuspended && host.openChunks == old(host.openChunks)
    ensures host.progress == old(host.progress) + BakeProgress(|frames|, ok)
  {
    host.OpenChunk();
    host.SuspendRefresh(true);
    host.Report(Begin(2 * |frames|));
    ok, captured := BakePasses(host, sel0, target, attr, index, frames);
    host.SuspendRefresh(false);
    host.CloseChunk();
  }

  /** `apply_changes` of the older tool: the same plan as the newer tool, carried out with the
      older bake. */
  method ApplyChanges(host: Host, sel: seq<Obj>, attr: string, index: int, rangeVisible: bool, range: (int, int), allFrames: bool)
    returns (plan: SpaceSwitch.Plan, ok: bool)
    modifies host
    ensures plan == SpaceSwitch.PlanFor(sel, old(host.keys), rangeVisible, range, allFrames)
    ensures host.locked == old(host.locked) && host.keys == old(host.keys) && host.listening == old(host.listening)
    ensures plan.Warn? || plan.Fail? ==>
      !ok && host.time == old(host.time) && host.world == old(host.world) && host.enumAt == old(host.enumAt)
      && host.progress == old(host.progress) && host.openChunks == old(host.openChunks)
      && host.refreshSuspended == old(host.refreshSuspended)
    ensures !(plan.Warn? || plan.Fail?) ==> (ok <==> Plug(sel[0], attr) !in host.locked)
    ensures plan.ApplyHere? ==> host.time == old(host.time)
    ensures plan.JumpAndApply? ==> host.time == plan.frame
    ensures (plan.ApplyHere? || plan.JumpAndApply?) && ok ==>
      && host.world(plan.target, host.time) == old(host.world)(plan.target, host.time)
      && host.enumAt == old(host.enumAt)[(Plug(sel[0], attr), host.time) := index]
    ensures plan.Bake? && ok ==>
      && host.time == old(host.time)
      && (forall f :: f in plan.frames ==> host.world(plan.target, f) == old(host.world)(plan.target, f))
      && host.enumAt == SpaceSwitch.Stamp(old(host.enumAt), Plug(sel[0], attr), plan.frames, index)
    ensures plan.Bake? ==> forall o, t :: t !in plan.frames ==> host.world(o, t) == old(host.world)(o, t)
    ensures plan.Bake? && !ok ==>
      host.time == plan.frames[0] && host.world == old(host.world) && host.enumAt == old(host.enumAt)
    ensures plan.Bake? ==> !host.refreshSuspended && host.openChunks == old(host.openChunks)
    ensures (plan.ApplyHere? || plan.JumpAndApply?) && !ok ==>
      host.world == old(host.world) && host.enumAt == old(host.enumAt)
    ensures plan.ApplyHere? || plan.JumpAndApply? ==>
      && (forall o, t :: t != host.time ==> host.world(o, t) == old(host.world)(o, t))
      && host.progress == old(host.progress) && host.openChunks == old(host.openChunks)
      && host.refreshSuspended == old(host.refreshSuspended)
    ensures plan.Bake? ==> host.progress == old(host.progress) + BakeProgress(|plan.frames|, ok)
  {
    plan := SpaceSwitch.PlanFor(sel, host.keys, rangeVisible, range, allFrames);
    ok := false;
    match plan {
      case Warn =>
      case Fail(_) =>
      case ApplyHere(target) =>
        ok := SpaceSwitch.DoXform(host, sel[0], target, attr, index, None);
      case JumpAndApply(target, frame) =>
        host.SetTime(frame);
        ok := SpaceSwitch.DoXform(host, sel[0], target, attr, index, None);
      case Bake(target, frames) =>
        var captured;
        ok, captured := MultipleFrames(host, sel[0], target, attr, index, frames);
        forall f | f in frames
          ensures ok ==> host.world(target, f) == old(host.world)(target, f)
        {
          var i :| 0 <= i < |frames| && frames[i] == f;
        }
    }
  }

  // ---------------------------------------------------------------------------------------
  // Which attributes are offered (`getEnum` of the older tool)

  /** The enum labels that mark a rotate-order attribute. */
  const RotateOrderLabels: seq<string> := ["xyz", "xzy", "yxz", "yzx", "zxy", "zyx"]

  /** How many of the animatable plugs end with `attr`. */
  function MatchCount(attr: string, plugs: seq<string>): (c: nat)
    ensures c <= |plugs|
    ensures |plugs| == 1 ==> c == if Text.EndsWith(plugs[0], attr) then 1 else 0
    ensures c > 0 <==> exists p :: p in plugs && Text.EndsWith(p, attr)
  {
    if plugs == [] then 0
    else
      assert forall p :: p in plugs <==> p == plugs[0] || p in plugs[1..];
      (if Text.EndsWith(plugs[0], attr) then 1 else 0) + MatchCount(attr, plugs[1..])
  }

  /** The count over two listings is the sum of the counts over each: every matching plug adds
      one copy of the attribute. */
  lemma {:induction false} MatchCountAppend(attr: string, a: seq<string>, b: seq<string>)
    ensures MatchCount(attr, a + b) == MatchCount(attr, a) + MatchCount(attr, b)
  {
    if a == [] {
      assert a + b == b;
    } else {
      assert (a + b)[0] == a[0] && (a + b)[1..] == a[1..] + b;
      MatchCountAppend(attr, a[1..], b);
    }
  }

  /** `[attr for attr in allAttrs for cb in cbAttrs if cb.endswith(attr)]`: every attribute, in
      the order of the full listing, once per animatable plug whose path ends with its name. */
  function Ordered(allAttrs: seq<string>, plugs: seq<string>): (r: seq<string>)
    ensures forall a :: a in r <==> a in allAttrs && exists p :: p in plugs && Text.EndsWith(p, a)
  {
    if allAttrs == [] then []
    else
      var a := allAttrs[0];
      var copies := seq(MatchCount(a, plugs), _ => a);
      assert MatchCount(a, plugs) > 0 ==> copies[0] == a;
      assert forall x :: x in copies <==> x == a && MatchCount(a, plugs) > 0;
      assert forall x :: x in allAttrs <==> x == a || x in allAttrs[1..];
      copies + Ordered(allAttrs[1..], plugs)
  }

  /** An attribute is kept when its type is "enum" and none of its labels is a rotate order. */
  predicate KeptByLegacy(info: SpaceSwitch.AttrInfo)
  {
    info.kind == "enum" && forall x :: x in RotateOrderLabels ==> x !in Text.Split(info.enumNames, ':')
  }

  /** The filter loop: each attribute's type query raises for an attribute it does not know, and
      that ends `getEnum` with the error. */
  function KeepEnums(ordered: seq<string>, info: map<string, SpaceSwitch.AttrInfo>): (r: Result<seq<string>>)
    ensures r.Err? <==> exists a :: a in ordered && a !in info
    ensures r.Ok? ==> forall a :: a in r.value <==> a in ordered && KeptByLegacy(info[a])
    ensures r.Ok? ==> |r.value| <= |ordered|
  {
    if ordered == [] then Ok([])
    else
      var a := ordered[0];
      assert forall x :: x in ordered <==> x == a || x in ordered[1..];
      if a !in info then Err("RuntimeError")
      else
        var rest := KeepEnums(ordered[1..], info);
        if rest.Err? then rest
        else if KeptByLegacy(info[a]) then Ok([a] + rest.value)
        else rest
  }

  /** `getEnum` of the older tool: nothing (`None`) when the full listing or the animatable listing
      is empty, otherwise the kept attributes or the error of a failed type query. */
  function GetEnum(allAttrs: seq<string>, plugs: seq<string>, info: map<string, SpaceSwitch.AttrInfo>): (r: Result<Option<seq<string>>>)
    ensures r == Ok(None) <==> allAttrs == [] || plugs == []
    ensures r.Err? <==> allAttrs != [] && plugs != [] && exists a :: a in Ordered(allAttrs, plugs) && a !in info
    ensures r.Ok? && r.value.Some? ==>
      forall a :: a in r.value.value <==>
        a in allAttrs && (exists p :: p in plugs && Text.EndsWith(p, a)) && KeptByLegacy(info[a])
  {
    if allAttrs == [] || plugs == [] then Ok(None)
    else
      var r := KeepEnums(Ordered(allAttrs, plugs), info);
      if r.Err? then Err(r.error) else Ok(Some(r.value))
  }

  /** An enum whose labels include "xyz" is never offered by the older tool. */
  lemma RotateOrderNeverOffered(allAttrs: seq<string>, plugs: seq<string>, info: map<string, SpaceSwitch.AttrInfo>, a: string)
    requires a in info && "xyz" in Text.Split(info[a].enumNames, ':')
    ensures GetEnum(allAttrs, plugs, info).Ok? && GetEnum(allAttrs, plugs, info).value.Some? ==>
      a !in GetEnum(allAttrs, plugs, info).value.value
  {
    assert "xyz" in RotateOrderLabels;
  }

  // ---------------------------------------------------------------------------------------
  // What the panel shows

  /** The name display in the older `refresh`: with the namespace option on, the name is shortened
      to "...:" and the segment after its first colon, left-aligned, and a name without a colon
      raises; with it off the name is shown whole and right-aligned. The option reads the other way
      round from the newer tool's, and a name without a namespace fails instead of being shown. */
  function DisplayName(name: string, namespaces: bool): (r: Result<SpaceSwitch.NameLabel>)
    ensures !namespaces ==> r == Ok(SpaceSwitch.NameLabel(name, true))
    ensures namespaces ==> (r.Err? <==> ':' !in name)
    ensures namespaces && ':' in name ==> r == Ok(SpaceSwitch.DisplayName(name, false))
  {
    if !namespaces then Ok(SpaceSwitch.NameLabel(name, true))
    else
      var parts := Text.Split(name, ':');
      if |parts| < 2 then Err("IndexError") else Ok(SpaceSwitch.NameLabel("...:" + parts[1], false))
  }
}

=== FILE: text.dfy ===
/** The few Python string operations the tools rely on: `str.split`, `str.join`,
    `str.endswith`, `str.isalnum`, `"%s" % n` for a natural number, and the ordering
    Python applies when two strings are compared with `<` or `>`. */
module Text {

  /** `s.split(sep)`: the pieces between occurrences of `sep`, never an empty list. */
  function Split(s: string, sep: char): (parts: seq<string>)
    ensures |parts| >= 1
    ensures forall i :: 0 <= i < |parts| ==> sep !in parts[i]
    ensures sep in s <==> |parts| >= 2
    decreases |s|
  {
    if s == [] then [""]
    else
      var rest := Split(s[1..], sep);
      if s[0] == sep then [""] + rest
      else [[s[0]] + rest[0]] + rest[1..]
  }

  /** `sep.join(parts)`. */
  function Join(parts: seq<string>, sep: string): string
  {
    if |parts| == 0 then ""
    else if |parts| == 1 then parts[0]
    else parts[0] + sep + Join(parts[1..], sep)
  }

  /** Splitting and joining back with the same separator gives the original string. */
  lemma {:induction false} JoinSplit(s: string, sep: char)
    ensures Join(Split(s, sep), [sep]) == s
    decreases |s|
  {
    if s != [] {
      var rest := Split(s[1..], sep);
      JoinSplit(s[1..], sep);
      if s[0] == sep {
        assert Split(s, sep) == [""] + rest;
        assert ([""] + rest)[1..] == rest;
        assert s == [sep] + s[1..];
      } else {
        assert Split(s, sep) == [[s[0]] + rest[0]] + rest[1..];
        if |rest| == 1 {
          assert s == [s[0]] + s[1..];
        } else {
          assert ([[s[0]] + rest[0]] + rest[1..])[1..] == rest[1..];
          assert s == [s[0]] + s[1..];
        }
      }
    }
  }

  /** A piece free of the separator, followed by the separator, is split off as the first piece. */
  lemma {:induction false} SplitAtFirst(a: string, b: string, sep: char)
    requires sep !in a
    ensures Split(a + [sep] + b, sep) == [a] + Split(b, sep)
    decreases |a|
  {
    if a == [] {
      assert a + [sep] + b == [sep] + b;
      assert ([sep] + b)[1..] == b;
    } else {
      var s := a + [sep] + b;
      assert s[0] == a[0] && s[1..] == a[1..] + [sep] + b;
      SplitAtFirst(a[1..], b, sep);
      assert [a[0]] + a[1..] == a;
    }
  }

  /** A string without the separator is split into itself alone. */
  lemma SplitNoSep(s: string, sep: char)
    requires sep !in s
    ensures Split(s, sep) == [s]
  {
    JoinSplit(s, sep);
  }

  /** `s.endswith(suffix)`. */
  predicate EndsWith(s: string, suffix: string)
  {
    |suffix| <= |s| && s[|s| - |suffix|..] == suffix
  }

  /** A joined list ends with its last piece, and with the separator before it when there are
      at least two pieces. */
  lemma {:induction false} JoinEndsWithLast(parts: seq<string>, sep: string)
    requires |parts| >= 1
    ensures EndsWith(Join(parts, sep), parts[|parts| - 1])
    ensures |parts| >= 2 ==> EndsWith(Join(parts, sep), sep + parts[|parts| - 1])
  {
    if |parts| > 1 {
      var last := parts[|parts| - 1];
      var tail := Join(parts[1..], sep);
      var whole := parts[0] + sep + tail;
      JoinEndsWithLast(parts[1..], sep);
      assert whole[|whole| - |last|..] == tail[|tail| - |last|..];
      if |parts| == 2 {
        assert tail == last;
        assert whole[|whole| - |sep + last|..] == sep + last;
      } else {
        assert whole[|whole| - |sep + last|..] == tail[|tail| - |sep + last|..];
      }
    }
  }

  /** `s.rsplit(sep, 1)[-1]`: the text after the last separator, or all of `s` when it has none. */
  function LastSegment(s: string, sep: char): (r: string)
    ensures sep !in r
    ensures EndsWith(s, r)
    ensures sep !in s ==> r == s
    ensures sep in s ==> EndsWith(s, [sep] + r)
  {
    var parts := Split(s, sep);
    JoinSplit(s, sep);
    JoinEndsWithLast(parts, [sep]);
    assert sep !in s ==> parts == [s] by {
      if sep !in s {
        SplitNoSep(s, sep);
      }
    }
    parts[|parts| - 1]
  }

  predicate IsAlnumChar(c: char)
  {
    ('a' <= c <= 'z') || ('A' <= c <= 'Z') || ('0' <= c <= '9')
  }

  /** `s.isalnum()`: at least one character, and every character a letter or a digit. */
  predicate IsAlnum(s: string)
  {
    |s| > 0 && forall i :: 0 <= i < |s| ==> IsAlnumChar(s[i])
  }

  function DigitChar(d: nat): (c: char)
    requires d < 10
    ensures '0' <= c <= '9'
    ensures (c as int) - ('0' as int) == d
  {
    (('0' as int) + d) as char
  }

  /** `"%s" % n` for a natural number: its decimal digits, most significant first. */
  function NatToString(n: nat): (s: string)
    ensures |s| >= 1
    ensures forall i :: 0 <= i < |s| ==> '0' <= s[i] <= '9'
  {
    if n < 10 then [DigitChar(n)] else NatToString(n / 10) + [DigitChar(n % 10)]
  }

  /** The value of a string of decimal digits. */
  function DigitsValue(s: string): nat
    requires forall i :: 0 <= i < |s| ==> '0' <= s[i] <= '9'
  {
    if s == [] then 0 else 10 * DigitsValue(s[..|s| - 1]) + ((s[|s| - 1] as int) - ('0' as int))
  }

  /** Reading back the decimal rendering gives the number. */
  lemma {:induction false} NatToStringRoundTrip(n: nat)
    ensures DigitsValue(NatToString(n)) == n
  {
    if n >= 10 {
      NatToStringRoundTrip(n / 10);
      var s := NatToString(n);
      assert s[..|s| - 1] == NatToString(n / 10);
      assert (s[|s| - 1] as int) - ('0' as int) == n % 10;
      assert DigitsValue(s) == 10 * (n / 10) + n % 10;
    }
  }

  /** Python's `a < b` on two strings: lexicographic by character code, a proper prefix first. */
  predicate LexLess(a: string, b: string)
    decreases |a|
  {
    if a == [] then b != []
    else if b == [] then false
    else if a[0] != b[0] then a[0] < b[0]
    else LexLess(a[1..], b[1..])
  }

  lemma {:induction false} LexLessIrreflexive(a: string)
    ensures !LexLess(a, a)
    decreases |a|
  {
    if a != [] {
      LexLessIrreflexive(a[1..]);
    }
  }

  lemma {:induction false} LexLessTransitive(a: string, b: string, c: string)
    requires LexLess(a, b) && LexLess(b, c)
    ensures LexLess(a, c)
    decreases |a|
  {
    if a != [] && b != [] && c != [] && a[0] == b[0] && b[0] == c[0] {
      LexLessTransitive(a[1..], b[1..], c[1..]);
    }
  }

  /** Any two different strings are ordered one way or the other. */
  lemma {:induction false} LexLessTotal(a: string, b: string)
    requires a != b
    ensures LexLess(a, b) || LexLess(b, a)
    decreases |a|
  {
    if a != [] && b != [] && a[0] == b[0] {
      assert a == [a[0]] + a[1..] && b == [b[0]] + b[1..];
      LexLessTotal(a[1..], b[1..]);
    }
  }
}

=== FILE: wrappers.dfy ===
/** Failure-carrying values used across the model: a Python call that returns `None`
    becomes an `Option`, a call that raises becomes a `Result` holding the exception's name. */
module Wrappers {

  datatype Option<+T> = None | Some(value: T)

  datatype Result<+T> = Ok(value: T) | Err(error: string)

}
